=== FILE: README.md ===
# valuerobust core, modelled in Dafny

valuerobust is a small "value finder" for op-shop donations. A photo goes to an
image-identification endpoint. That endpoint asks a chat-completion provider for an
identification record (item name, brand, model, keywords, marketing bullets). The
browser page builds a search query from the record and lets the user edit it. A
sold-listings endpoint then asks a completed-items search provider for recent sales
and returns the first few. Both endpoints exist twice: as routes of a long-running
Express server (with a cache in front of the sold-listings provider) and as
serverless functions (no cache, CORS headers, method dispatch). A separate script
unpacks a bundle file into the project's source files.

The model is purely functional. Every provider reply, `JSON.parse` and
`JSON.stringify` is a parameter. The server's cache is a `map` threaded through as
explicit state. The modules follow the program:

- `Wrappers` holds `Option` and `Result`.
- `Text` holds whitespace trimming, substring search, `split`/`join`, whitespace
  collapsing and decimal digits. These are shared by the script and the JavaScript
  code; whitespace is the six ASCII characters on which both languages agree.
- `Js` holds JSON values as they cross the wire (objects as maps) and the JavaScript
  coercions the code relies on: truthiness, `String(v)` and when it throws, property
  reads, object spread, `parseInt(v, 10)` and `Array.prototype.slice(0, end)`.
- `Http` holds a provider reply (`status`, body text, or a transport failure) and a
  handler response (status, headers, JSON body or empty).
- `Bundle` models `build.py`: splitting, header and end-marker handling, and the
  files that end up written.
- `Gemini` models `server/gemini.js` and its serverless copy `api/_lib/gemini.js`:
  code-fence stripping, parse-or-fallback, reading the chat reply, data-URL
  handling and the outgoing request.
- `RapidAsp` models `server/rapidAsp.js` and its serverless copy
  `api/_lib/rapidAsp.js`: size clamp, cache key, request, header redaction, body
  decoding, the error on a failed status, and the server's cache discipline.
- `Utils` models `server/utils.js` and the identical `toInt` in `api/sold.js`.
- `Handlers` models the `/api/identify` and `/api/sold` routes of `server/index.js`
  and the serverless functions `api/identify.js` and `api/sold.js`.
- `App` models the page state of `ui/src/App.jsx`: the suggested query, "Clean
  whitespace", reset, and the 10-row table. Identify and search are asynchronous: a
  click starts the call, and the reply is a later action applied to the state of that
  moment, so a reset can come in between; a late search reply fills the results of
  whatever state the page then has, as the code does. Loading a photo (`capturePhoto`,
  `handleFileUpload`) is the action `LoadImage`.

A parsed identification is returned exactly as parsed. It is not coerced to the five-field
record shape; only an unparsable reply becomes the fixed fallback record.

## Model

| member | source | states |
|---|---|---|
| `Bundle.Parse` | build.py:17-45 | The entries are exactly the entries of the pieces that parse, in the order of the pieces: the piece after `k` parsing pieces gives entry `k`. Every entry has a path and content without surrounding whitespace. |
| `Bundle.ParseEach` | build.py:22-25 | Each piece, including the text before the first delimiter, is parsed on its own and in order. |
| `Bundle.ParseEmpty` | build.py:17-25 | An empty bundle yields no entries. |
| `Bundle.ParseCount` | build.py:17-22 | There are at most as many entries as occurrences of `<<<FILE:`, plus one. |
| `Bundle.ParseBlock` | build.py:23-34 | A piece yields no entry exactly when it is blank after stripping or has no `>>>`; otherwise the entry's path and content carry no surrounding whitespace. |
| `Bundle.ParsedPathHasNoHeader` | build.py:31-37 | The path is cut before the first `>>>`, so it never contains `>>>`. |
| `Bundle.StripEndMarker` | build.py:40-45 | Content ending in `<<<ENDFILE>>>` loses exactly one marker and is right-stripped; otherwise it is unchanged. The result is a trimmed prefix of its input. |
| `Bundle.Files` | build.py:53-60 | Every entry with a non-empty path is written, and every written path is non-empty and named by some entry. |
| `Bundle.FilesLastWins` | build.py:54-56 | Writing entries in order, a non-empty path ends up holding the content of the last entry that names it. |
| `Bundle.EmptyPathNotWritten` | build.py:54-60 | An entry with the empty path is never written: opening it fails and the failure is only reported. |
| `Bundle.ParseRender` | build.py:17-45 | Bundling well-formed entries and parsing the bundle gives the same entries back, in order. |
| `Bundle.BuildWritesEveryFile` | build.py:53-60 | After unpacking a bundle of well-formed entries with distinct paths, every entry with a non-empty path has its file holding exactly its content, and the empty path is not written. |
| `Text.SplitCount` | build.py:17 | `split` yields at most one more piece than there are separator occurrences. |
| `Gemini.StripCodeFences` | server/gemini.js:17-19 | The stripped reply never begins or ends with whitespace. |
| `Gemini.StripWithoutFence` | server/gemini.js:17-19 | Text without a triple backtick is only trimmed (identical in api/_lib/gemini.js:10-12). |
| `Gemini.StripJsonFence` | server/gemini.js:18 | One fence opened by "```json" in any letter case, around a body without backticks, is replaced by the trimmed body. |
| `Gemini.StripPlainFence` | api/_lib/gemini.js:11 | One plain "```" fence around a body that has no backticks and does not start with `json` is replaced by the trimmed body. |
| `Gemini.SafeJsonParse` | server/gemini.js:20-33 | It never fails: a parse failure gives exactly the fallback record, and a parse success gives the parsed value unchanged. |
| `Gemini.Fallback` | api/_lib/gemini.js:14-26 | The fallback record has exactly the five fields: `itemName`, `brand` and `model` are `'unknown'`, `keywords` is `''` and `marketingBullets` is `[]`. |
| `Gemini.FencedParsesAsBody` | server/gemini.js:20-22 | A reply fenced as "```json" with only whitespace outside the fence reads exactly as its unfenced body. |
| `Gemini.ReplyContent` | server/gemini.js:121 | The content is the value found by reading `choices`, `0`, `message`, `content` in turn when that value exists and is truthy, and `''` otherwise. |
| `Gemini.LookupIsChain` | server/gemini.js:121 | The optional chain along the content path is the same as a plain lookup along it. |
| `Gemini.ReadIdentification` | server/gemini.js:111-124 | A transport failure is rethrown. A failed status raises `OpenAI HTTP <status>: <body>`. Success needs an ok status and a parsable body, and no error carries details. |
| `Gemini.NonOkIgnoresParser` | api/_lib/gemini.js:92-96 | On a failed status the parser is never consulted: any two parsers give the same error. |
| `Gemini.BlankContentFails` | server/gemini.js:121-122 | Content that is absent anywhere along the path, falsy, or a whitespace-only string raises `Empty OpenAI response`. |
| `Gemini.ContentIsParsed` | api/_lib/gemini.js:101-104 | Non-blank string content is handed to the safe parse, and its result is the identification. |
| `Gemini.CompletionContent` | api/_lib/gemini.js:101 | For a completion holding any content, that content is read when truthy, and `''` otherwise. |
| `Gemini.DataUrlPayload` | server/gemini.js:130 | With a comma in the input, the payload is the text between the first comma and the next comma or the end, and has no comma. Without a comma, the input is forwarded unchanged. |
| `Text.SecondPieceBetween` | server/gemini.js:130 | The second piece of a split at a character lies between its first occurrence and the next one or the end. |
| `Gemini.DataUrlRoundTrip` | api/_lib/gemini.js:108 | For a media type and payload without commas, stripping the header of `data:<mime>;base64,<payload>` gives back the payload. |
| `Gemini.ImageUrl` | server/gemini.js:76 | The image URL is `data:`, then the media type, then `;base64,`, then the payload, and nothing else. |
| `Gemini.ModelName` | api/_lib/gemini.js:30 | The model is the configured one when set and non-empty, and `gpt-4o-mini` when unset or empty. |
| `Gemini.IdentifyRequest` | server/gemini.js:68-131 | The request goes to the chat-completions URL (line 38) with `max_tokens` 1000, the bearer key and the configured model (lines 68-109). The image URL is built from the given media type, or `image/jpeg` when none is given, and the payload cut from the sent text (lines 128-131). |
| `Gemini.ForwardedPayload` | api/_lib/gemini.js:107-110 | A data URL sent through `identifyFromImage` together with its own media type is rebuilt unchanged for the provider. |
| `Gemini.UntypedUrlBecomesJpeg` | server/gemini.js:128-131 | A data URL sent without a media type, as `ui/src/lib/api.js` sends it, keeps its payload but is labelled `image/jpeg`, whatever type it named. |
| `RapidAsp.ClampSize` | server/rapidAsp.js:29-31 | The size is always 60, 120 or 240: an allowed request is kept, any other becomes 240, and an omitted one is 120. |
| `RapidAsp.ClampIdempotent` | api/_lib/rapidAsp.js:12-13 | Clamping a clamped size changes nothing. |
| `RapidAsp.HostName` | api/_lib/rapidAsp.js:6 | The host is the configured one when set and non-empty, and the default provider host when unset or empty. |
| `RapidAsp.CacheKey` | server/rapidAsp.js:33 | The key starts with `sold:`. |
| `RapidAsp.CacheKeyInjective` | server/rapidAsp.js:33 | Distinct keyword and size pairs give distinct keys. |
| `RapidAsp.RequestFor` | server/rapidAsp.js:36-45 | The request goes to `https://<host>/findCompletedItems`. Its body has exactly the keywords, unchanged, and the size as decimal text. Its headers are exactly the key, the host and the JSON content type. |
| `RapidAsp.RequestSizeReadsBack` | api/_lib/rapidAsp.js:16-19 | The size text in the body reads back as the clamped size. |
| `RapidAsp.RedactHeaders` | server/rapidAsp.js:48-51 | The logged key is `***REDACTED***` when a key is set and `""` otherwise; every other header is logged as sent. |
| `RapidAsp.LoggedRequestHidesKey` | server/rapidAsp.js:48-57 | The logged request never shows a non-empty key, and shows the host and content type as sent. |
| `RapidAsp.DecodeBody` | server/rapidAsp.js:76-82 | Empty text decodes to `{}`, parsable text to its value, and anything else to `{raw: text}`. |
| `RapidAsp.DecodeKeepsText` | api/_lib/rapidAsp.js:42-48 | No reply text is lost: unparsable text is kept under `raw`. |
| `RapidAsp.ErrorMessage` | server/rapidAsp.js:95-97 | For an object, an array or `null` the message is the serialized body. Otherwise it is `String(body)`: the string itself, the number's text, or `true`/`false`. |
| `RapidAsp.ReadSold` | api/_lib/rapidAsp.js:42-59 | A transport failure is rethrown. A failed status raises the serialized decoded body. An ok status returns the decoded body. |
| `RapidAsp.FailedRawReply` | server/rapidAsp.js:94-99 | A failed reply whose text is not JSON reports the serialization of `{raw: text}`. |
| `RapidAsp.FindSoldServerless` | api/_lib/rapidAsp.js:10-60 | Every call sends one request, to `https://<host>/findCompletedItems` with the keywords unchanged, and its outcome is the read reply. |
| `RapidAsp.FindSold` | server/rapidAsp.js:29-103 | A hit returns the stored value, sends nothing and leaves the cache alone. A failure leaves the cache unchanged. A success stores the body under the key. |
| `RapidAsp.MissIsServerless` | server/rapidAsp.js:34-102 | On a miss the server sends the same request and gets the same outcome as the serverless gateway. It stores the body under the key exactly when the call succeeds, and every other key keeps its presence and its value. |
| `RapidAsp.StoredThenHit` | server/rapidAsp.js:101-102 | After a success the same search hits: same body, no request, whatever the provider would now reply. |
| `RapidAsp.EvictedRefetches` | server/rapidAsp.js:20 | When the cache has lost an entry, the next search for it asks the provider again. |
| `Utils.ToIntReadsPrefix` | server/utils.js:3 | After optional leading whitespace, the leading integer is read whatever follows it. |
| `Utils.ToIntExamples` | api/sold.js:3-6 | "3.7" reads as 3 and "-5x" as -5. |
| `Utils.ToIntWithoutDigits` | server/utils.js:3 | A value without any digit reads as the fallback. |
| `Utils.ToIntAbsent` | api/sold.js:4-5 | An absent value and the empty string read as the fallback. |
| `Utils.OkJson` | server/utils.js:1 | Status 200 with the object as the body, unchanged. |
| `Utils.ErrorBody` | server/utils.js:2 | The body has `error` set to the message and has `details` exactly when details are given; it has no other keys. |
| `Utils.ErrJson` | server/utils.js:2 | The given status with the error body. |
| `Js.SliceTo` | server/index.js:45 | `slice(0, end)` is a prefix of the array. It has `end` elements, capped at the length, for a non-negative end; a negative end counts back from the end. |
| `Js.SliceNegativeDropsTail` | api/sold.js:34 | A negative limit `-k` drops exactly the last `k` products. |
| `Js.SpreadItems` | server/index.js:44 | Spreading an array copies each element under its index key and nothing else. |
| `Handlers.Cors` | api/sold.js:10-12 | The three CORS headers: any origin, the function's methods, and `Content-Type`. |
| `Handlers.IdentifyEnvelope` | server/index.js:27 | The response has every field of the identification, unchanged, plus `success: true` unless the identification has its own `success`. |
| `Handlers.IdentifiedFieldsWin` | api/identify.js:24 | An identification's own `success` field overrides `success: true`. |
| `Handlers.IdentifyOutcome` | server/index.js:26-30 | Success gives 200 with the envelope; failure gives 500. |
| `Handlers.IdentifyFailureMessage` | api/identify.js:25-30 | A failure answers `{error: 'Gemini failed', details: {message}}`. |
| `Handlers.ServerIdentify` | server/index.js:22-31 | A missing or empty image gives 400 `imageBase64 required` and no provider request. Otherwise the one request sent is the gateway's identify request for the sent image, its media type, the configured model and the OpenAI key; status and body follow the gateway's outcome. |
| `Handlers.ServerlessIdentify` | api/identify.js:5-15 | CORS headers are set on every path. OPTIONS gives 200 with an empty body and no request. Any method other than POST gives 405 `Method not allowed`. |
| `Handlers.ServerlessIdentifyIsServer` | api/identify.js:18-30 | A POST sends the same request and answers with the same status and body as the server route. |
| `Handlers.Keywords` | server/index.js:36 | The keywords are the given text with whitespace trimmed from both ends, or empty when none is given. |
| `Handlers.KeywordsBlank` | server/index.js:36-37 | The keywords are empty, so the route answers 400, exactly when none are given or the given text is all whitespace. |
| `Handlers.Products` | server/index.js:45 | `products` is the provider's array sliced to the limit, or `[]` when there is no array. |
| `Handlers.ProductsArePrefix` | api/sold.js:34 | The returned products are a prefix of the provider's list, of length `min(limit, n)` for a non-negative limit. |
| `Handlers.NoProductsWithoutArray` | server/index.js:45 | A provider body without a `products` array yields no products. |
| `Handlers.SoldEnvelope` | server/index.js:42-46 | A `null` provider body is an error. Otherwise the keys are the provider's plus `success` and `products`. `products` is set as above, every other provider field passes through unchanged, and `success` is true unless the provider sent its own. |
| `Handlers.SoldErrorDetails` | server/index.js:48-51 | The failure details carry the message, and carry `details` exactly when the error's details are truthy. |
| `Handlers.SoldOutcome` | api/sold.js:29-44 | The status is 200 exactly when the gateway succeeded with a non-null body, and the body is then the sold envelope. Otherwise the status is 500 and the body is `RapidAPI failed` with the failure details of the gateway's error, or of the error reading `products` from `null`. |
| `Handlers.SoldFailureMessage` | server/index.js:47-52 | A failure answers exactly `{error: 'RapidAPI failed', details}`, where `details` holds the message, and the error's own `details` exactly when they are truthy. |
| `Handlers.ServerSold` | server/index.js:34-53 | Trimmed-empty keywords give 400 `keywords required`, with no request and an unchanged cache. Otherwise the cached gateway is asked for size 120 with the trimmed keywords, and the answer follows its outcome with limit `toInt(limit, 10)`. |
| `Handlers.ServerlessSold` | api/sold.js:8-26 | CORS headers are set on every path. OPTIONS gives 200 with an empty body. A method other than GET gives 405. Trimmed-empty keywords give 400 `keywords required`. None of these sends a request. |
| `Handlers.ServerlessSoldIsColdServer` | api/sold.js:22-44 | A GET behaves exactly as the server route with an empty cache. |
| `Handlers.SoldAsksFor120` | server/index.js:40 | Every search the route sends asks for `max_search_results` "120". |
| `Text.Clean` | ui/src/App.jsx:327 | The cleaned text has no whitespace at its ends, and only single spaces between words. |
| `Text.Words` | ui/src/App.jsx:327 | The words of a text are non-empty and hold no whitespace. |
| `Text.CleanIsWords` | ui/src/App.jsx:327 | Cleaning gives exactly the text's words, in order, joined by single spaces. |
| `Text.CleanIdempotent` | ui/src/App.jsx:327 | Cleaning twice is cleaning once. |
| `Text.CleanKeepsNonSpace` | ui/src/App.jsx:115-116 | Cleaning keeps every visible character, in order. |
| `App.Bit` | ui/src/App.jsx:109-111 | A field contributes one entry exactly when it is present, truthy and not `'unknown'`, and that entry is the field's text as `String` gives it. |
| `App.Extras` | ui/src/App.jsx:113-116 | The keywords part is the cleaned text of truthy keywords, and empty otherwise. It has whitespace runs collapsed to single spaces and is trimmed; with `Text.CleanIsWords`, it is the keywords' words joined by single spaces. |
| `App.NonEmpty` | ui/src/App.jsx:120 | Filtering keeps no empty string, keeps every non-empty part as often as it occurs, and keeps the kept parts in their order. |
| `App.Suggest` | ui/src/App.jsx:118-122 | The suggestion is never empty and never has whitespace at its ends. |
| `App.SuggestFallback` | ui/src/App.jsx:122 | With no usable field and no keywords the suggestion is `brand model itemName`. |
| `App.SuggestJoinsParts` | ui/src/App.jsx:108-122 | For any identification, the suggestion is the base words joined by spaces and the keywords part, with `, ` between them only when both are non-empty, trimmed, and `brand model itemName` when that is empty. |
| `App.SuggestOfFallback` | ui/src/App.jsx:108-122 | The server's fallback identification gives the suggestion `brand model itemName`. |
| `App.SuggestAllParts` | ui/src/App.jsx:108-121 | Brand, model and item name are joined by single spaces, in that order, then `, ` and the keywords. |
| `App.UnknownIsMissing` | ui/src/App.jsx:109-111 | A field marked `'unknown'` gives the same suggestion as a missing field. |
| `App.ResetAnalysis` | ui/src/App.jsx:80-86 | Identification, query, staged flag, results and error are cleared; the photo and the flags of calls in flight stay. |
| `App.StartIdentify` | ui/src/App.jsx:95-102 | Without a photo, or while a call is awaited, nothing happens. Otherwise the photo is sent, the call is marked awaited, and identification, results, error and staged flag are cleared. |
| `App.FinishIdentify` | ui/src/App.jsx:103-131 | A reply with no call awaited changes nothing. Otherwise the call is no longer awaited. A non-null identification is kept and its suggestion staged, unless building the suggestion throws: then the identify error is shown and the query kept. A `null` reply or a thrown call shows the identify error and keeps the query. |
| `App.StartSearch` | ui/src/App.jsx:135-140 | With the editor hidden, a search awaited or a blank query, nothing happens. Otherwise the trimmed query is sent with limit 10, and results and error are cleared. |
| `App.FinishSearch` | ui/src/App.jsx:141-148 | A reply with no search awaited changes nothing. Otherwise the listings are shown, or the thrown message, or `Search failed.` when it has none. |
| `App.ApplyKeepsConsistent` | ui/src/App.jsx:80-149 | After any action, a staged query still has an identification, and nothing is staged while an identification is awaited. |
| `App.RunConsistent` | ui/src/App.jsx:80-149 | Every state reachable from the initial page by any run of actions is consistent. |
| `App.StagedOnlyByIdentify` | ui/src/App.jsx:103-125 | The staged flag turns on only when a non-null identification whose suggestion can be built arrives for an awaited call. |
| `App.ApplyKeepsPhotoBacked` | ui/src/App.jsx:88-131 | Every action except a reset while an identification is awaited keeps a staged query, or an awaited call, tied to a photo on screen. |
| `App.ResetDuringIdentify` | ui/src/App.jsx:233 | "Reset" stays enabled while identifying, and the late reply is still applied: load, identify, reset, then a usable reply leaves a query staged with no photo. |
| `App.UninterruptedIdentify` | ui/src/App.jsx:95-131 | An identification with nothing in between sends the photo, clears the results, and stages the suggestion exactly when the reply is non-null and its suggestion can be built; otherwise it shows the identify error, keeps the old query, and keeps whatever identification arrived. |
| `App.OwnToStringFails` | ui/src/App.jsx:108-127 | An identification whose brand, model, item name or keywords is an object with its own `toString` key is kept, but the suggestion cannot be turned into text: the identify error is shown and nothing is staged. |
| `App.CleanWhitespaceIdempotent` | ui/src/App.jsx:327 | Pressing "Clean whitespace" a second time changes nothing. |
| `App.SearchAfterClean` | ui/src/App.jsx:135-141 | A search after cleaning sends trimmed keywords with the same visible characters as the query. |
| `App.Rows` | ui/src/App.jsx:362 | The table shows at most 10 rows: the provider's first ten, or none when `products` is absent. |
| `App.RowsArePrefix` | ui/src/App.jsx:362 | The rows are the first `min(10, n)` products, in order. |

## Left out

- The `fetch` calls to both providers and from the page are not modelled; each reply is an input, as a status with body text or a transport failure.
- `JSON.parse` and `JSON.stringify` are opaque parameters. Property order of objects is not modelled, because objects are maps. Numbers are kept as their text.
- The `lru-cache` capacity of 500, its one-year lifetime and its eviction order are not modelled. The cache is a map that may lose any entry, as `RapidAsp.EvictedRefetches` states.
- Whitespace is the six ASCII characters tab, line feed, vertical tab, form feed, carriage return and space. Python's `strip()` also removes the ASCII separators U+001C to U+001F, which JavaScript keeps; these and the non-ASCII Unicode whitespace of both languages are not modelled.
- Integers are unbounded, so `parseInt` overflowing to `Infinity` is not modelled.
- Logging, log files, `console` output and latency timing are left out, as are `build.py`'s file count and its messages. Writing is modelled as a map from paths to contents; the empty path, which cannot be opened, is not written.
- Bundle.BuildWritesEveryFile: assumes every non-empty path can be opened for writing. The directory step (build.py:48-51) runs outside the `try`, so a path under an earlier entry's file (`a`, then `a/b/c`) stops the script there; a path naming a directory, or any other OS failure on writing, is reported and skipped. Neither is modelled. Paths are compared as text, so two texts naming one file (`a` and `./a`) count as distinct and the later write wins on disk. The bundle is read in text mode: `\r\n` and `\r` become `\n` before splitting, invalid UTF-8 stops the script, and files are written with the platform's line ending. The model reads and writes the characters unchanged.
- Bundle.FilesLastWins: the same assumption; an entry whose write fails leaves the earlier content in place.
- Express, `cors`, `morgan`, rate limiting, `dotenv` and `app.listen` are framework wiring and are left out. The environment reads of `server/config.js` become the `Settings` parameters, with their defaults in `Gemini.ModelName` and `RapidAsp.HostName`.
- The prompt text sent to the identification provider is left out; the request keeps the URL, authorization, model, image URL and token limit.
- Request fields are modelled as strings or absent. Non-string `imageBase64`, `mimeType`, `keywords` or `limit` values are not modelled; neither are repeated query parameters or a non-object JSON body.
- Messages of errors the JavaScript engine throws are fixed texts: reading `products` of `null`, and calling `trim` on non-string content.
- Utils.ToInt: the default argument `f = 0` is not modelled; the fallback is always passed explicitly, as every modelled caller does.
- The page's camera, file reader, canvas capture, React rendering and `ui/src/lib/api.js` are left out. Loading a photo is one action carrying its data URL. Which controls are shown and enabled is modelled only as the guard of each action. A failed identify or search call is an input (`None`, or `Failure` with the message when it is a string).
- App.Rows: a truthy `products` that is not an array makes the page fail to render; the model returns `None` there and states nothing more.

=== FILE: app.dfy ===
/** The browser page: the state it keeps between identifying a photo and searching sold
    listings, the query it suggests from an identification, and how each user action
    changes the state. The two endpoint calls are asynchronous: starting one sends the
    request, and its reply arrives later as an action of its own, applied to whatever the
    state is by then. */
module App {
  import opened Wrappers
  import opened Text
  import opened Js
  import Gemini

  /** The suggestion used when the identification yields no words at all. */
  const FallbackQuery: string := "brand model itemName"
  const IdentifyError: string := "Failed to identify the item."
  /** Shown when a failed search carries no message text. */
  const SearchError: string := "Search failed."
  /** The page asks for, and shows, this many sold listings. */
  const RowLimit: int := 10

  /** The page state; `JNull` stands for a cleared `identified` or `sold`. `identifying`
      and `searching` are set while a call is awaited. */
  datatype UiState = UiState(
    image: Option<string>,
    identified: Json,
    query: string,
    staged: bool,
    sold: Json,
    error: Option<string>,
    identifying: bool,
    searching: bool)

  /** The search the page sends: `GET /api/sold?keywords=…&limit=…`. */
  datatype SearchRequest = SearchRequest(keywords: string, limit: int)

  /** A state after an action, and the request the action sent, if any. */
  datatype Step<Q> = Step(state: UiState, request: Option<Q>)

  /** A user action or the arrival of a reply. An identify reply is `None` when the call
      threw; a failed search carries the thrown message when it is a string. */
  datatype Action =
    | LoadImage(dataUrl: string)
    | ResetAll
    | IdentifyStart
    | IdentifyReply(reply: Option<Json>)
    | EditQuery(text: string)
    | CleanWhitespace
    | SearchStart
    | SearchReply(result: Result<Json, Option<string>>)

  const Initial: UiState := UiState(None, JNull, "", false, JNull, None, false, false)

  predicate HasImage(st: UiState) {
    st.image.Some? && st.image.value != ""
  }

  // ---------------------------------------------------------------------------
  // The suggested query
  // ---------------------------------------------------------------------------

  /** `j[key]` when it is truthy and not `'unknown'`, as display text. */
  function Bit(j: Json, key: string): (b: seq<string>)
    ensures |b| <= 1
    ensures |b| == 1 <==> Get(j, key).Some? && Truthy(Get(j, key).value) && Get(j, key).value != Gemini.Unknown
    ensures |b| == 1 ==> b[0] == ToDisplay(Get(j, key).value)
  {
    match Get(j, key)
    case Some(v) => if Truthy(v) && v != Gemini.Unknown then [ToDisplay(v)] else []
    case None => []
  }

  /** Brand, model and item name, in that order, each only when present. */
  function BaseBits(j: Json): (bits: seq<string>)
    ensures |bits| <= 3
  {
    Bit(j, "brand") + Bit(j, "model") + Bit(j, "itemName")
  }

  /** The identification's keywords with whitespace runs collapsed, "" when falsy. */
  function Extras(j: Json): (e: string)
    ensures Collapsed(e) && Trimmed(e)
    ensures Get(j, "keywords").Some? && Truthy(Get(j, "keywords").value) ==>
      e == Clean(ToDisplay(Get(j, "keywords").value))
    ensures Get(j, "keywords").None? || !Truthy(Get(j, "keywords").value) ==> e == ""
  {
    match Get(j, "keywords")
    case Some(v) => if Truthy(v) then Clean(ToDisplay(v)) else ""
    case None => ""
  }

  /** `ys` is `xs` with some entries dropped and the rest kept in order. */
  predicate Subsequence<T(==)>(ys: seq<T>, xs: seq<T>)
    decreases |xs|
  {
    if ys == [] then true
    else if xs == [] then false
    else if ys[0] == xs[0] then Subsequence(ys[1..], xs[1..])
    else Subsequence(ys, xs[1..])
  }

  /** `filter(Boolean)` on strings: drops the empty ones and keeps every other entry,
      in order. */
  function NonEmpty(xs: seq<string>): (ys: seq<string>)
    ensures |ys| <= |xs|
    ensures forall i | 0 <= i < |ys| :: ys[i] != ""
    ensures multiset(ys) == multiset(xs)["" := 0]
    ensures Subsequence(ys, xs)
  {
    if |xs| == 0 then []
    else
      assert xs == [xs[0]] + xs[1..];
      if xs[0] == "" then NonEmpty(xs[1..])
      else [xs[0]] + NonEmpty(xs[1..])
  }

  /** The query proposed after identifying: `"<brand> <model> <itemName>, <keywords>"`
      with the missing pieces and separators left out, trimmed, never empty. */
  function Suggest(j: Json): (s: string)
    ensures s != "" && Trimmed(s)
  {
    var t := Trim(Join(NonEmpty([Join(BaseBits(j), " "), Extras(j)]), ", "));
    if t == "" then FallbackQuery else t
  }

  /** The text conversion of a used base field throws (see `Js.DisplayThrows`). */
  predicate BitThrows(j: Json, key: string) {
    |Bit(j, key)| == 1 && DisplayThrows(Get(j, key).value)
  }

  /** Building the suggestion throws: joining the base fields, or converting truthy
      keywords to text, meets a value whose conversion throws. */
  predicate SuggestThrows(j: Json) {
    BitThrows(j, "brand") || BitThrows(j, "model") || BitThrows(j, "itemName")
    || (Get(j, "keywords").Some? && Truthy(Get(j, "keywords").value) && DisplayThrows(Get(j, "keywords").value))
  }

  /** When nothing is known the fallback is proposed, whatever else the identification
      holds. */
  lemma SuggestFallback(j: Json)
    requires BaseBits(j) == [] && Extras(j) == ""
    ensures Suggest(j) == FallbackQuery
  {
    assert NonEmpty(["", ""]) == [] by {
      assert ["", ""][1..] == [""];
      assert [""][1..] == [];
    }
  }

  /** A fully identified item with single-word fields and cleaned keywords is suggested
      as `"<brand> <model> <itemName>, <keywords>"`. */
  lemma SuggestAllParts(brand: string, model: string, item: string, keywords: string)
    requires brand != "" && model != "" && item != ""
    requires brand != "unknown" && model != "unknown" && item != "unknown"
    requires !IsSpace(brand[0]) && Trimmed(keywords) && keywords != ""
    requires Clean(keywords) == keywords
    ensures Suggest(JObj(map["brand" := JStr(brand), "model" := JStr(model), "itemName" := JStr(item), "keywords" := JStr(keywords)]))
      == brand + " " + model + " " + item + ", " + keywords
  {
    var j := JObj(map["brand" := JStr(brand), "model" := JStr(model), "itemName" := JStr(item), "keywords" := JStr(keywords)]);
    ItemParts(brand, model, item, keywords);
    JoinThree(brand, model, item, " ");
    var b := brand + " " + model + " " + item;
    NonEmptyTwo(b, keywords);
    JoinTwo(b, keywords, ", ");
    var x := b + ", " + keywords;
    assert x[0] == brand[0];
    assert x[|x| - 1] == keywords[|keywords| - 1];
    TrimPadded([], x, []);
    assert [] + x + [] == x;
  }

  lemma ItemParts(brand: string, model: string, item: string, keywords: string)
    requires brand != "" && model != "" && item != ""
    requires brand != "unknown" && model != "unknown" && item != "unknown"
    requires keywords != "" && Clean(keywords) == keywords
    ensures var j := JObj(map["brand" := JStr(brand), "model" := JStr(model), "itemName" := JStr(item), "keywords" := JStr(keywords)]);
      BaseBits(j) == [brand, model, item] && Extras(j) == keywords
  {
    var m := map["brand" := JStr(brand), "model" := JStr(model), "itemName" := JStr(item), "keywords" := JStr(keywords)];
    StringBit(m, "brand", brand);
    StringBit(m, "model", model);
    StringBit(m, "itemName", item);
    assert Get(JObj(m), "keywords") == Some(JStr(keywords));
  }

  /** A known, non-empty string field contributes itself. */
  lemma StringBit(m: map<string, Json>, key: string, v: string)
    requires key in m && m[key] == JStr(v) && v != "" && v != "unknown"
    ensures Bit(JObj(m), key) == [v]
  {
  }

  lemma JoinTwo(a: string, b: string, sep: string)
    ensures Join([a, b], sep) == a + sep + b
  {
    assert [a, b][1..] == [b];
  }

  lemma JoinThree(a: string, b: string, c: string, sep: string)
    ensures Join([a, b, c], sep) == a + sep + b + sep + c
  {
    assert [a, b, c][1..] == [b, c];
    JoinTwo(b, c, sep);
  }

  lemma NonEmptyTwo(a: string, b: string)
    requires a != "" && b != ""
    ensures NonEmpty([a, b]) == [a, b]
  {
    assert [a, b][1..] == [b];
    assert [b][1..] == [];
  }

  /** Two objects that agree on `key` contribute the same bit for it. */
  lemma BitAgrees(a: map<string, Json>, b: map<string, Json>, key: string)
    requires (key in a <==> key in b) && (key in a ==> a[key] == b[key])
    ensures Bit(JObj(a), key) == Bit(JObj(b), key)
  {
  }

  lemma ExtrasAgree(a: map<string, Json>, b: map<string, Json>)
    requires ("keywords" in a <==> "keywords" in b) && ("keywords" in a ==> a["keywords"] == b["keywords"])
    ensures Extras(JObj(a)) == Extras(JObj(b))
  {
  }

  /** A field the identification marks `'unknown'` contributes exactly what a missing
      field does. */
  lemma UnknownIsMissing(fields: map<string, Json>, key: string)
    requires key == "brand" || key == "model" || key == "itemName"
    ensures Suggest(JObj(fields[key := Gemini.Unknown])) == Suggest(JObj(fields - {key}))
  {
    var fa := fields[key := Gemini.Unknown];
    var fb := fields - {key};
    assert Bit(JObj(fa), key) == [] && Bit(JObj(fb), key) == [];
    if key != "brand" { BitAgrees(fa, fb, "brand"); }
    if key != "model" { BitAgrees(fa, fb, "model"); }
    if key != "itemName" { BitAgrees(fa, fb, "itemName"); }
    ExtrasAgree(fa, fb);
    SuggestAgrees(JObj(fa), JObj(fb));
  }

  /** Two identifications with the same base words and keywords part get the same
      suggestion. */
  lemma SuggestAgrees(a: Json, b: Json)
    requires BaseBits(a) == BaseBits(b) && Extras(a) == Extras(b)
    ensures Suggest(a) == Suggest(b)
  {
  }

  /** The suggestion for any identification: the base words joined by spaces and the
      cleaned keywords, separated by `, ` only when both are present, then trimmed, and
      the fallback when that leaves nothing. The base words are not cleaned, so a field
      with whitespace at its ends can leave inner runs of spaces. */
  lemma SuggestJoinsParts(j: Json)
    ensures var b := Join(BaseBits(j), " ");
      var e := Extras(j);
      var t := Trim(if b == "" then e else if e == "" then b else b + ", " + e);
      Suggest(j) == if t == "" then FallbackQuery else t
  {
    KeepNonEmptyJoined(Join(BaseBits(j), " "), Extras(j));
  }

  /** Filtering out the empty one of two parts and joining what is left. */
  lemma KeepNonEmptyJoined(b: string, e: string)
    ensures Join(NonEmpty([b, e]), ", ") == if b == "" then e else if e == "" then b else b + ", " + e
  {
    assert [b, e][1..] == [e];
    assert [e][1..] == [];
    if b == "" && e != "" {
      assert NonEmpty([b, e]) == [e];
    } else if b != "" && e == "" {
      assert NonEmpty([b, e]) == [b];
    } else if b != "" && e != "" {
      NonEmptyTwo(b, e);
      JoinTwo(b, e, ", ");
    }
  }

  /** The identification the server falls back to when the model's reply is not JSON
      gives the fallback suggestion. */
  lemma SuggestOfFallback()
    ensures Suggest(Gemini.Fallback()) == FallbackQuery
  {
    var f := Gemini.Fallback();
    assert Bit(f, "brand") == [] && Bit(f, "model") == [] && Bit(f, "itemName") == [];
    assert Extras(f) == "";
    SuggestFallback(f);
  }

  // ---------------------------------------------------------------------------
  // Actions
  // ---------------------------------------------------------------------------

  /** `resetAnalysis`: everything derived from the photo is cleared; the photo and the
      flags of calls in flight stay. */
  function ResetAnalysis(st: UiState): (r: UiState)
    ensures r.image == st.image && r.identifying == st.identifying && r.searching == st.searching
    ensures r.identified == JNull && r.query == "" && !r.staged && r.sold == JNull && r.error.None?
  {
    st.(identified := JNull, query := "", staged := false, sold := JNull, error := None)
  }

  /** A click on "Identify": nothing without a photo (the button is not shown) or while a
      call is awaited (the button is disabled); otherwise the photo is sent and the
      identification, results, error and staged flag are cleared. */
  function StartIdentify(st: UiState): (s: Step<string>)
    ensures !HasImage(st) || st.identifying ==> s == Step(st, None)
    ensures HasImage(st) && !st.identifying ==>
      s.request == st.image && s.state.identifying && !s.state.staged
      && s.state.identified == JNull && s.state.sold == JNull && s.state.error.None?
      && s.state.image == st.image && s.state.query == st.query && s.state.searching == st.searching
  {
    if !HasImage(st) || st.identifying then Step(st, None)
    else Step(st.(identifying := true, error := None, identified := JNull, sold := JNull, staged := false), st.image)
  }

  /** The identify reply, applied to the state of the moment: a non-null identification
      is kept and its suggestion staged for editing; a thrown call, a `null` reply
      (reading a field of it throws) or an identification whose suggestion cannot be
      built shows the identify error. Either way the call is no longer awaited. Nothing
      is awaited, nothing changes. */
  function FinishIdentify(st: UiState, reply: Option<Json>): (r: UiState)
    ensures !st.identifying ==> r == st
    ensures st.identifying ==> !r.identifying && r.image == st.image && r.sold == st.sold && r.searching == st.searching
    ensures st.identifying && reply.Some? && !reply.value.JNull? ==> r.identified == reply.value
    ensures st.identifying && reply.Some? && !reply.value.JNull? && !SuggestThrows(reply.value) ==>
      r.query == Suggest(reply.value) && r.staged && r.error == st.error
    ensures st.identifying && reply.Some? && !reply.value.JNull? && SuggestThrows(reply.value) ==>
      r.error == Some(IdentifyError) && r.query == st.query && r.staged == st.staged
    ensures st.identifying && reply == Some(JNull) ==>
      r.identified == JNull && r.error == Some(IdentifyError) && r.query == st.query && r.staged == st.staged
    ensures st.identifying && reply.None? ==>
      r.identified == st.identified && r.error == Some(IdentifyError) && r.query == st.query && r.staged == st.staged
  {
    if !st.identifying then st
    else
      var done := st.(identifying := false);
      match reply
      case None => done.(error := Some(IdentifyError))
      case Some(j) =>
        if j.JNull? then done.(identified := JNull, error := Some(IdentifyError))
        else if SuggestThrows(j) then done.(identified := j, error := Some(IdentifyError))
        else done.(identified := j, query := Suggest(j), staged := true)
  }

  /** A click on "Search sold": nothing while the editor is hidden, while a search is
      awaited, or for a blank query; otherwise the trimmed query is sent with a limit of
      10 and the results and error are cleared. */
  function StartSearch(st: UiState): (s: Step<SearchRequest>)
    ensures !st.staged || st.searching || Trim(st.query) == "" ==> s == Step(st, None)
    ensures st.staged && !st.searching && Trim(st.query) != "" ==>
      s.request == Some(SearchRequest(Trim(st.query), RowLimit))
      && s.state == st.(searching := true, error := None, sold := JNull)
  {
    var keywords := Trim(st.query);
    if !st.staged || st.searching || keywords == "" then Step(st, None)
    else Step(st.(searching := true, error := None, sold := JNull), Some(SearchRequest(keywords, RowLimit)))
  }

  /** The search reply, applied to the state of the moment: the listings are shown, or the
      thrown message, `Search failed.` when it has none. */
  function FinishSearch(st: UiState, result: Result<Json, Option<string>>): (r: UiState)
    ensures !st.searching ==> r == st
    ensures st.searching ==> (match result
      case Success(d) => r == st.(searching := false, sold := d)
      case Failure(m) => r == st.(searching := false, error := Some(if m.Some? then m.value else SearchError)))
  {
    if !st.searching then st
    else
      match result
      case Success(d) => st.(searching := false, sold := d)
      case Failure(m) => st.(searching := false, error := Some(m.GetOr(SearchError)))
  }

  /** The state after an action. Photo intake is shown only without a photo and "Reset"
      only with one; the query editor and its buttons only while a query is staged. */
  function Apply(st: UiState, a: Action): UiState {
    match a
    case LoadImage(u) => if HasImage(st) then st else ResetAnalysis(st.(image := Some(u)))
    case ResetAll => if HasImage(st) then ResetAnalysis(st.(image := None)) else st
    case IdentifyStart => StartIdentify(st).state
    case IdentifyReply(reply) => FinishIdentify(st, reply)
    case EditQuery(t) => if st.staged then st.(query := t) else st
    case CleanWhitespace => if st.staged then st.(query := Clean(st.query)) else st
    case SearchStart => StartSearch(st).state
    case SearchReply(r) => FinishSearch(st, r)
  }

  /** The state after a run of actions, the last one applied last. */
  function Run(st: UiState, actions: seq<Action>): UiState
    decreases |actions|
  {
    if |actions| == 0 then st
    else Apply(Run(st, actions[..|actions| - 1]), actions[|actions| - 1])
  }

  /** What the page keeps whatever the user does: a staged query comes with an
      identification, and nothing is staged while an identification is awaited. */
  predicate Consistent(st: UiState) {
    (st.staged ==> !st.identified.JNull?) && (st.identifying ==> !st.staged)
  }

  /** Every action keeps the page consistent. */
  lemma ApplyKeepsConsistent(st: UiState, a: Action)
    requires Consistent(st)
    ensures Consistent(Apply(st, a))
  {
  }

  /** Every state reached from the initial one by a run of actions is consistent. */
  lemma {:induction false} RunConsistent(actions: seq<Action>)
    ensures Consistent(Run(Initial, actions))
    decreases |actions|
  {
    if |actions| > 0 {
      RunConsistent(actions[..|actions| - 1]);
      ApplyKeepsConsistent(Run(Initial, actions[..|actions| - 1]), actions[|actions| - 1]);
    }
  }

  /** A query becomes staged only when a non-null identification arrives for a call that
      was awaited. */
  lemma StagedOnlyByIdentify(st: UiState, a: Action)
    requires !st.staged && Apply(st, a).staged
    ensures a.IdentifyReply? && st.identifying && a.reply.Some? && !a.reply.value.JNull?
    ensures !SuggestThrows(a.reply.value)
  {
  }

  /** A staged query and an awaited call belong to a photo on screen, as long as the photo
      is not reset while an identification is awaited. */
  predicate PhotoBacked(st: UiState) {
    Consistent(st) && (st.staged || st.identifying ==> HasImage(st))
  }

  /** Every action except "Reset" during an identification keeps the staged query tied to
      the photo on screen. */
  lemma ApplyKeepsPhotoBacked(st: UiState, a: Action)
    requires PhotoBacked(st) && !(st.identifying && a.ResetAll?)
    ensures PhotoBacked(Apply(st, a))
  {
  }

  /** "Reset" is not disabled while an identification is awaited, and the reply is still
      applied afterwards: a query is then staged with no photo on screen. */
  lemma ResetDuringIdentify(u: string, j: Json)
    requires u != "" && !j.JNull?
    ensures var st := Run(Initial, [LoadImage(u), IdentifyStart, ResetAll, IdentifyReply(Some(j))]);
      st.identified == j && !HasImage(st) && (st.staged <==> !SuggestThrows(j))
      && (!SuggestThrows(j) ==> !PhotoBacked(st))
  {
    var a := [LoadImage(u), IdentifyStart, ResetAll, IdentifyReply(Some(j))];
    assert a[..0] == [];
    assert Run(Initial, a[..1]) == Apply(Initial, LoadImage(u));
    assert a[..2][..1] == a[..1];
    assert Run(Initial, a[..2]) == Apply(Run(Initial, a[..1]), IdentifyStart);
    assert a[..3][..2] == a[..2];
    assert Run(Initial, a[..3]) == Apply(Run(Initial, a[..2]), ResetAll);
    assert a[..3] == a[..|a| - 1];
  }

  /** An identification that is not interrupted: from a state with a photo and no call
      awaited, starting and then receiving the reply sends the photo, clears the results,
      and stages the suggestion exactly when the reply is a non-null value; otherwise the
      identify error is shown and the old query kept. */
  lemma UninterruptedIdentify(st: UiState, reply: Option<Json>)
    requires HasImage(st) && !st.identifying
    ensures var s := StartIdentify(st);
      var r := FinishIdentify(s.state, reply);
      s.request == st.image && r.image == st.image && r.sold == JNull && !r.identifying
      && (r.staged <==> reply.Some? && !reply.value.JNull? && !SuggestThrows(reply.value))
      && (r.staged ==> r.identified == reply.value && r.query == Suggest(reply.value) && r.error.None?)
      && (!r.staged ==>
            r.identified == (if reply.Some? then reply.value else JNull)
            && r.error == Some(IdentifyError) && r.query == st.query)
  {
  }

  /** An identification with a used field, or truthy keywords, that is an object with
      its own `toString` key (for instance `{"brand": {"toString": 1}}`) is kept, but the
      suggestion cannot be built: the identify error is shown and nothing new is staged. */
  lemma OwnToStringFails(st: UiState, m: map<string, Json>, key: string, t: map<string, Json>)
    requires st.identifying && Consistent(st)
    requires key == "brand" || key == "model" || key == "itemName" || key == "keywords"
    requires key in m && m[key] == JObj(t) && "toString" in t
    ensures var r := FinishIdentify(st, Some(JObj(m)));
      r.identified == JObj(m) && r.error == Some(IdentifyError) && !r.staged && r.query == st.query
  {
    assert Get(JObj(m), key) == Some(JObj(t));
    assert SuggestThrows(JObj(m));
  }

  /** "Clean whitespace" a second time changes nothing. */
  lemma CleanWhitespaceIdempotent(st: UiState)
    ensures Apply(Apply(st, CleanWhitespace), CleanWhitespace) == Apply(st, CleanWhitespace)
  {
    var st1 := if st.staged then st.(query := Clean(st.query)) else st;
    assert Apply(st, CleanWhitespace) == st1;
    CleanIdempotent(st.query);
    assert Apply(st1, CleanWhitespace) == st1;
  }

  /** A search never sends a query with whitespace at the ends, and cleaning first does
      not change which words are sent. */
  lemma SearchAfterClean(st: UiState)
    requires st.staged && !st.searching && Trim(st.query) != ""
    ensures var s := StartSearch(Apply(st, CleanWhitespace));
      s.request.Some? && Trimmed(s.request.value.keywords)
      && NonSpace(s.request.value.keywords) == NonSpace(st.query)
  {
    var c := Clean(st.query);
    var st2 := st.(query := c);
    assert Apply(st, CleanWhitespace) == st2;
    CleanKeepsNonSpace(st.query);
    NonSpaceOfTrim(st.query);
    VisibleWhenTrimmedNonEmpty(Trim(st.query));
    assert c != "";
    TrimPadded([], c, []);
    assert [] + c + [] == c;
    assert StartSearch(st2).request == Some(SearchRequest(c, RowLimit));
  }

  lemma VisibleWhenTrimmedNonEmpty(t: string)
    requires t != "" && Trimmed(t)
    ensures NonSpace(t) != ""
  {
  }

  // ---------------------------------------------------------------------------
  // The results table
  // ---------------------------------------------------------------------------

  /** The rows shown for a truthy `sold`: its `products` cut to ten, none when `products`
      is absent or falsy, or `None` when a truthy `products` is not an array and the
      table cannot be drawn. */
  function Rows(sold: Json): (r: Option<seq<Json>>)
    ensures r.Some? ==> |r.value| <= RowLimit
    ensures forall xs :: Get(sold, "products") == Some(JArr(xs)) ==> r == Some(SliceTo(xs, RowLimit))
    ensures Get(sold, "products").None? ==> r == Some([])
  {
    match Get(sold, "products")
    case None => Some([])
    case Some(p) =>
      if !Truthy(p) then Some([])
      else if p.JArr? then Some(SliceTo(p.items, RowLimit))
      else None
  }

  /** The rows are the first ten products, in the provider's order. */
  lemma RowsArePrefix(sold: Json, xs: seq<Json>)
    requires Get(sold, "products") == Some(JArr(xs))
    ensures Rows(sold).Some?
    ensures var r := Rows(sold).value; r == xs[..|r|] && |r| == (if |xs| < RowLimit then |xs| else RowLimit)
  {
  }
}

=== FILE: bundle.dfy ===
/** The project bundler: one text file holds many source files, each introduced by a
    file delimiter and a path, closed by an end marker; splitting it recovers the
    `(path, content)` pairs that get written to disk. */
module Bundle {
  import opened Wrappers
  import opened Text

  const FileDelimiter: string := "<<<FILE:"
  const HeaderEnd: string := ">>>"
  const EndMarker: string := "<<<ENDFILE>>>"

  /** One file recovered from the bundle. */
  datatype Entry = Entry(path: string, content: string)

  /** Path and content carry no surrounding whitespace. */
  predicate TrimmedEntry(e: Entry) {
    Trimmed(e.path) && Trimmed(e.content)
  }

  /** What follows the header: surrounding whitespace is dropped, then a trailing end
      marker together with the whitespace before it. Without the marker the text is
      kept whole. */
  function StripEndMarker(body: string): (r: string)
    requires Trimmed(body)
    ensures Trimmed(r)
    ensures |r| <= |body| && r == body[..|r|]
    ensures !EndsWith(body, EndMarker) ==> r == body
    ensures EndsWith(body, EndMarker) ==>
      |r| <= |body| - |EndMarker| && AllSpace(body[|r|..|body| - |EndMarker|])
  {
    if EndsWith(body, EndMarker) then
      var r := TrimEnd(body[..|body| - |EndMarker|]);
      assert body[..|body| - |EndMarker|][|r|..] == body[|r|..|body| - |EndMarker|];
      r
    else
      body
  }

  /** One block between file delimiters. A blank block, or one without the header
      delimiter, yields nothing; otherwise the path is the trimmed text before the first
      header delimiter and the content is what follows it, end marker removed. */
  function ParseBlock(raw: string): (r: Option<Entry>)
    ensures r.None? <==> Trim(raw) == [] || !Contains(Trim(raw), HeaderEnd)
    ensures r.Some? ==> TrimmedEntry(r.value)
  {
    var block := Trim(raw);
    if block == [] then None
    else
      match IndexOf(block, HeaderEnd)
      case None => None
      case Some(h) => Some(Entry(Trim(block[..h]), StripEndMarker(Trim(block[h + |HeaderEnd|..]))))
  }

  /** The pieces `ParseBlock` assembles, named one by one. */
  lemma ParseBlockIs(raw: string, block: string, h: nat, e: Entry)
    requires Trim(raw) == block && block != []
    requires IndexOf(block, HeaderEnd) == Some(h)
    requires Trim(block[..h]) == e.path
    requires StripEndMarker(Trim(block[h + |HeaderEnd|..])) == e.content
    ensures ParseBlock(raw) == Some(e)
  {
  }

  /** The path never holds the header delimiter: it is cut from before the first one. */
  lemma PathHasNoHeader(block: string, h: nat)
    requires IndexOf(block, HeaderEnd) == Some(h)
    ensures !Contains(Trim(block[..h]), HeaderEnd)
  {
    PrefixBeforeFirst(block, HeaderEnd, h);
    var head := block[..h];
    TrimIsInfix(head);
    var k := |head| - |TrimStart(head)|;
    InfixNotContains(head, k, k + |Trim(head)|, HeaderEnd);
  }

  lemma ParsedPathHasNoHeader(raw: string)
    requires ParseBlock(raw).Some?
    ensures !Contains(ParseBlock(raw).value.path, HeaderEnd)
  {
    var block := Trim(raw);
    var h := IndexOf(block, HeaderEnd).value;
    PathHasNoHeader(block, h);
    ParseBlockIs(raw, block, h, ParseBlock(raw).value);
  }

  /** The present values, in order. */
  function Present<T>(xs: seq<Option<T>>): (ys: seq<T>)
    ensures |ys| == Somes(xs) <= |xs|
    ensures forall y | y in ys :: Some(y) in xs
  {
    if xs == [] then []
    else if xs[0].None? then Present(xs[1..])
    else [xs[0].value] + Present(xs[1..])
  }

  lemma {:induction false} PresentOfAll<T>(xs: seq<Option<T>>, ys: seq<T>)
    requires |xs| == |ys|
    requires forall i | 0 <= i < |xs| :: xs[i] == Some(ys[i])
    ensures Present(xs) == ys
    decreases |xs|
  {
    if xs != [] {
      PresentOfAll(xs[1..], ys[1..]);
      assert ys == [ys[0]] + ys[1..];
    }
  }

  /** Each block parsed on its own. */
  function ParseEach(blocks: seq<string>): (ps: seq<Option<Entry>>)
    ensures |ps| == |blocks|
    ensures forall i | 0 <= i < |blocks| :: ps[i] == ParseBlock(blocks[i])
  {
    if blocks == [] then [] else [ParseBlock(blocks[0])] + ParseEach(blocks[1..])
  }

  /** How many of the blocks yield an entry. */
  function ParsedCount(blocks: seq<string>): (n: nat)
    ensures n <= |blocks|
    decreases |blocks|
  {
    if blocks == [] then 0
    else (if ParseBlock(blocks[0]).Some? then 1 else 0) + ParsedCount(blocks[1..])
  }

  /** How many values are present. */
  function Somes<T>(xs: seq<Option<T>>): (n: nat)
    ensures n <= |xs|
  {
    if xs == [] then 0 else (if xs[0].Some? then 1 else 0) + Somes(xs[1..])
  }

  lemma SomesPrefix<T>(xs: seq<Option<T>>, i: nat)
    requires 0 < i <= |xs|
    ensures Somes(xs[..i]) == (if xs[0].Some? then 1 else 0) + Somes(xs[1..][..i - 1])
  {
    assert xs[..i][1..] == xs[1..][..i - 1];
  }

  /** The present values keep their order: value `i`, when present, comes right after
      the values present before it. */
  lemma {:induction false} PresentAt<T>(xs: seq<Option<T>>, i: nat)
    requires i < |xs| && xs[i].Some?
    ensures Somes(xs[..i]) < |Present(xs)| && Present(xs)[Somes(xs[..i])] == xs[i].value
    decreases i
  {
    var t := xs[1..];
    PresentCons(xs[0], t);
    assert xs == [xs[0]] + t;
    if i == 0 {
      assert xs[..0] == [];
    } else {
      SomesPrefix(xs, i);
      assert xs[i] == t[i - 1];
      PresentAt(t, i - 1);
      var c := if xs[0].Some? then 1 else 0;
      var k := Somes(t[..i - 1]);
      assert Present(xs)[c + k] == Present(t)[k];
    }
  }

  lemma PresentInOrder<T>(xs: seq<Option<T>>)
    ensures |Present(xs)| == Somes(xs)
    ensures forall i | 0 <= i < |xs| && xs[i].Some? ::
      Somes(xs[..i]) < |Present(xs)| && Present(xs)[Somes(xs[..i])] == xs[i].value
  {
    forall i | 0 <= i < |xs| && xs[i].Some?
      ensures Somes(xs[..i]) < |Present(xs)| && Present(xs)[Somes(xs[..i])] == xs[i].value
    {
      PresentAt(xs, i);
    }
  }

  /** Counting the blocks that parse is counting the present results. */
  lemma {:induction false} ParsedCountIsSomes(blocks: seq<string>)
    ensures ParsedCount(blocks) == Somes(ParseEach(blocks))
    decreases |blocks|
  {
    if blocks != [] {
      ParseEachCons(blocks[0], blocks[1..]);
      assert blocks == [blocks[0]] + blocks[1..];
      ParsedCountIsSomes(blocks[1..]);
      assert ParseEach(blocks)[1..] == ParseEach(blocks[1..]);
    }
  }

  /** The entries of the blocks are those blocks that parse, in order: block `i`, when it
      parses, is the entry after the entries of the blocks before it. */
  lemma ParseEachInOrder(blocks: seq<string>)
    ensures var es := Present(ParseEach(blocks));
      |es| == ParsedCount(blocks)
      && forall i | 0 <= i < |blocks| && ParseBlock(blocks[i]).Some? ::
        ParsedCount(blocks[..i]) < |es| && es[ParsedCount(blocks[..i])] == ParseBlock(blocks[i]).value
  {
    var ps := ParseEach(blocks);
    PresentInOrder(ps);
    ParsedCountIsSomes(blocks);
    forall i | 0 <= i < |blocks| && ParseBlock(blocks[i]).Some?
      ensures ParsedCount(blocks[..i]) == Somes(ps[..i]) && ps[i] == ParseBlock(blocks[i])
    {
      assert ParseEach(blocks[..i]) == ps[..i];
      ParsedCountIsSomes(blocks[..i]);
    }
  }

  /** The whole bundle: split on the file delimiter, then keep each block that parses.
      The entries are exactly the blocks that parse, in the order of the input. */
  function Parse(all: string): (es: seq<Entry>)
    ensures var blocks := Split(all, FileDelimiter);
      |es| == ParsedCount(blocks)
      && forall i | 0 <= i < |blocks| && ParseBlock(blocks[i]).Some? ::
        ParsedCount(blocks[..i]) < |es| && es[ParsedCount(blocks[..i])] == ParseBlock(blocks[i]).value
    ensures forall e | e in es :: TrimmedEntry(e)
  {
    ParseEachInOrder(Split(all, FileDelimiter));
    Present(ParseEach(Split(all, FileDelimiter)))
  }

  /** The files on disk after writing the entries in order: a later entry with the same
      path overwrites an earlier one, and an entry with the empty path is not written,
      because opening "" for writing fails and the failure is only reported. */
  function Files(es: seq<Entry>): (fs: map<string, string>)
    ensures forall i | 0 <= i < |es| && es[i].path != "" :: es[i].path in fs
    ensures forall p | p in fs :: p != "" && exists i | 0 <= i < |es| :: es[i].path == p
  {
    if es == [] then map[]
    else
      var e := es[|es| - 1];
      var prev := Files(es[..|es| - 1]);
      var fs := if e.path == "" then prev else prev[e.path := e.content];
      assert forall i | 0 <= i < |es| - 1 :: es[..|es| - 1][i] == es[i];
      fs
  }

  /** No entry can create a file with the empty path. */
  lemma {:induction false} EmptyPathNotWritten(es: seq<Entry>)
    ensures "" !in Files(es)
    decreases |es|
  {
    if es != [] {
      EmptyPathNotWritten(es[..|es| - 1]);
    }
  }

  lemma {:induction false} FilesLastWins(es: seq<Entry>, i: nat)
    requires i < |es| && es[i].path != ""
    requires forall j | i < j < |es| :: es[j].path != es[i].path
    ensures Files(es)[es[i].path] == es[i].content
    decreases |es|
  {
    if i < |es| - 1 {
      var init := es[..|es| - 1];
      assert init[i] == es[i];
      FilesLastWins(init, i);
    }
  }

  /** No two entries have the same path text. Two different texts may still name one
      file (`a` and `./a`); that is not modelled. */
  predicate DistinctPaths(es: seq<Entry>) {
    forall j, k | 0 <= j < k < |es| :: es[j].path != es[k].path
  }

  lemma DistinctLastWins(es: seq<Entry>, i: nat)
    requires DistinctPaths(es) && i < |es| && es[i].path != ""
    ensures es[i].path in Files(es) && Files(es)[es[i].path] == es[i].content
  {
    FilesLastWins(es, i);
  }

  // ---------------------------------------------------------------------------
  // The inverse: writing a bundle
  // ---------------------------------------------------------------------------

  /** An entry that survives a round trip: trimmed path and content, a path without
      `>` (so the first header delimiter ends it), and neither part holding the file
      delimiter. */
  predicate WellFormed(e: Entry) {
    TrimmedEntry(e)
    && (forall k | 0 <= k < |e.path| :: e.path[k] != '>')
    && !Contains(e.path, FileDelimiter) && !Contains(e.content, FileDelimiter)
  }

  predicate AllWellFormed(es: seq<Entry>) {
    forall i | 0 <= i < |es| :: WellFormed(es[i])
  }

  /** One block as the bundle writes it, without its leading file delimiter. */
  function RenderBlock(e: Entry): string {
    e.path + HeaderEnd + "\n" + e.content + "\n" + EndMarker + "\n"
  }

  /** A bundle holding the entries in order. */
  function Render(es: seq<Entry>): string {
    if es == [] then "" else FileDelimiter + RenderBlock(es[0]) + Render(es[1..])
  }

  lemma RenderedBlockIsFree(e: Entry)
    requires WellFormed(e)
    ensures !Contains(RenderBlock(e), FileDelimiter)
  {
    MissingCharNotContained(">>", FileDelimiter, 0);
    NotContainsAcross(e.path, '>', ">>", FileDelimiter);
    assert e.path + ['>'] + ">>" == e.path + HeaderEnd;
    NotContainsAcross(e.path + HeaderEnd, '\n', e.content, FileDelimiter);
    MissingCharNotContained(EndMarker, FileDelimiter, 7);
    NotContainsAcross(e.path + HeaderEnd + "\n" + e.content, '\n', EndMarker, FileDelimiter);
    MissingCharNotContained("", FileDelimiter, 0);
    NotContainsAcross(e.path + HeaderEnd + "\n" + e.content + "\n" + EndMarker, '\n', "", FileDelimiter);
    assert e.path + HeaderEnd + "\n" + e.content + "\n" + EndMarker + "\n"
      == e.path + HeaderEnd + "\n" + e.content + "\n" + EndMarker + ['\n'] + "";
  }

  /** The blocks of a bundle, each without its leading file delimiter. */
  function RenderedBlocks(es: seq<Entry>): (bs: seq<string>)
    ensures |bs| == |es|
    ensures forall i | 0 <= i < |es| :: bs[i] == RenderBlock(es[i])
  {
    if es == [] then [] else [RenderBlock(es[0])] + RenderedBlocks(es[1..])
  }

  lemma SplitRenderFirst(x: string, es: seq<Entry>)
    requires !Contains(x, FileDelimiter)
    requires es != [] && WellFormed(es[0])
    ensures Split(x + Render(es), FileDelimiter) == [x] + Split(RenderBlock(es[0]) + Render(es[1..]), FileDelimiter)
  {
    var rest := RenderBlock(es[0]) + Render(es[1..]);
    UnborderedByLastChar(FileDelimiter);
    SplitAfterFree(x, FileDelimiter, rest);
    RenderCons(x, es);
  }

  lemma RenderCons(x: string, es: seq<Entry>)
    requires es != []
    ensures x + Render(es) == x + FileDelimiter + (RenderBlock(es[0]) + Render(es[1..]))
  {
    var b := RenderBlock(es[0]);
    var r := Render(es[1..]);
    assert Render(es) == FileDelimiter + b + r;
    ConcatAssoc(FileDelimiter, b, r);
    ConcatAssoc(x, FileDelimiter, b + r);
  }

  lemma {:induction false} SplitRender(x: string, es: seq<Entry>)
    requires !Contains(x, FileDelimiter)
    requires AllWellFormed(es)
    ensures Split(x + Render(es), FileDelimiter) == [x] + RenderedBlocks(es)
    decreases |es|
  {
    if es == [] {
      assert x + Render(es) == x;
      SplitFree(x, FileDelimiter);
    } else {
      SplitRenderFirst(x, es);
      RenderedBlockIsFree(es[0]);
      SplitRender(RenderBlock(es[0]), es[1..]);
    }
  }

  /** The header ends at the first `>`, which is where the path stops. */
  lemma HeaderFound(e: Entry, x: string)
    requires WellFormed(e)
    requires x == e.path + HeaderEnd + "\n" + e.content + "\n" + EndMarker
    ensures IndexOf(x, HeaderEnd) == Some(|e.path|)
  {
    assert x[|e.path|..|e.path| + 3] == HeaderEnd;
    forall j | 0 <= j < |e.path|
      ensures !OccursAt(x, HeaderEnd, j)
    {
      assert x[j..j + 3][0] == x[j] == e.path[j];
    }
    assert OccursAt(x, HeaderEnd, |e.path|);
    var r := IndexOf(x, HeaderEnd);
    assert r.Some?;
    assert !(r.value < |e.path|);
    assert !(r.value > |e.path|);
  }

  /** The rendered block trims to itself without the final newline. */
  lemma RenderedBlockTrim(e: Entry, x: string)
    requires WellFormed(e)
    requires x == e.path + HeaderEnd + "\n" + e.content + "\n" + EndMarker
    ensures Trim(RenderBlock(e)) == x
  {
    assert RenderBlock(e) == [] + x + "\n";
    TrimPadded([], x, "\n");
  }

  lemma RenderedPath(e: Entry, x: string)
    requires WellFormed(e)
    requires x == e.path + HeaderEnd + "\n" + e.content + "\n" + EndMarker
    ensures Trim(x[..|e.path|]) == e.path
  {
    assert x[..|e.path|] == [] + e.path + [];
    TrimPadded([], e.path, []);
  }

  lemma RenderedContent(e: Entry, x: string)
    requires WellFormed(e)
    requires x == e.path + HeaderEnd + "\n" + e.content + "\n" + EndMarker
    ensures StripEndMarker(Trim(x[|e.path| + |HeaderEnd|..])) == e.content
  {
    var after := x[|e.path| + |HeaderEnd|..];
    if e.content == [] {
      assert after == "\n\n" + EndMarker + [];
      TrimPadded("\n\n", EndMarker, []);
      var body := Trim(after);
      assert body[..|body| - |EndMarker|] == [];
      assert EndsWith(body, EndMarker);
    } else {
      assert after == "\n" + (e.content + "\n" + EndMarker) + [];
      TrimPadded("\n", e.content + "\n" + EndMarker, []);
      var body := Trim(after);
      assert body[..|body| - |EndMarker|] == e.content + "\n";
      TrimEndSkips(e.content, "\n");
      assert EndsWith(body, EndMarker);
    }
  }

  lemma ParseRenderedBlock(e: Entry)
    requires WellFormed(e)
    ensures ParseBlock(RenderBlock(e)) == Some(e)
  {
    var x := e.path + HeaderEnd + "\n" + e.content + "\n" + EndMarker;
    RenderedBlockTrim(e, x);
    HeaderFound(e, x);
    RenderedPath(e, x);
    RenderedContent(e, x);
    ParseBlockIs(RenderBlock(e), x, |e.path|, e);
  }

  lemma BlankBlock()
    ensures ParseBlock("") == None
  {
    TrimPadded([], [], []);
    assert [] + [] + [] == "";
  }

  lemma ParseEachCons(b: string, bs: seq<string>)
    ensures ParseEach([b] + bs) == [ParseBlock(b)] + ParseEach(bs)
  {
    assert ([b] + bs)[1..] == bs;
  }

  lemma PresentCons<T>(x: Option<T>, xs: seq<Option<T>>)
    ensures Present([x] + xs) == (if x.Some? then [x.value] else []) + Present(xs)
  {
    assert ([x] + xs)[1..] == xs;
  }

  lemma {:induction false} ParseRenderedTail(es: seq<Entry>)
    requires AllWellFormed(es)
    ensures Present(ParseEach(RenderedBlocks(es))) == es
    decreases |es|
  {
    if es != [] {
      var tail := RenderedBlocks(es[1..]);
      assert RenderedBlocks(es) == [RenderBlock(es[0])] + tail;
      ParseEachCons(RenderBlock(es[0]), tail);
      ParseRenderedBlock(es[0]);
      PresentCons(Some(es[0]), ParseEach(tail));
      ParseRenderedTail(es[1..]);
      assert es == [es[0]] + es[1..];
    }
  }

  lemma ParseRenderedBlocks(es: seq<Entry>)
    requires AllWellFormed(es)
    ensures Present(ParseEach([""] + RenderedBlocks(es))) == es
  {
    ParseEachCons("", RenderedBlocks(es));
    BlankBlock();
    PresentCons(None, ParseEach(RenderedBlocks(es)));
    ParseRenderedTail(es);
  }

  /** An empty bundle yields no entries. */
  lemma ParseEmpty()
    ensures Parse("") == []
  {
    MissingCharNotContained("", FileDelimiter, 0);
    SplitFree("", FileDelimiter);
    BlankBlock();
    ParseEachCons("", []);
    PresentCons(None, ParseEach([]));
  }

  /** There are never more entries than file delimiters, plus one for the text before
      the first of them. */
  lemma ParseCount(all: string)
    ensures |Parse(all)| <= Count(all, FileDelimiter, 0) + 1
  {
    SplitCount(all, FileDelimiter);
  }

  lemma SplitRendered(es: seq<Entry>)
    requires AllWellFormed(es)
    ensures Split(Render(es), FileDelimiter) == [""] + RenderedBlocks(es)
  {
    MissingCharNotContained("", FileDelimiter, 0);
    SplitRender("", es);
    assert "" + Render(es) == Render(es);
  }

  /** Bundling well-formed entries and splitting the bundle again gives them back. */
  lemma ParseRender(es: seq<Entry>)
    requires AllWellFormed(es)
    ensures Parse(Render(es)) == es
  {
    SplitRendered(es);
    ParseRenderedBlocks(es);
  }

  /** After building a well-formed bundle whose paths are distinct, every file with a
      non-empty path holds exactly its entry's content, and the empty path is never
      written. */
  lemma BuildWritesEveryFile(es: seq<Entry>, i: nat)
    requires AllWellFormed(es)
    requires DistinctPaths(es)
    requires i < |es|
    ensures var fs := Files(Parse(Render(es)));
      if es[i].path != "" then es[i].path in fs && fs[es[i].path] == es[i].content
      else es[i].path !in fs
  {
    ParseRender(es);
    if es[i].path != "" {
      DistinctLastWins(es, i);
    } else {
      EmptyPathNotWritten(es);
    }
  }
}

=== FILE: gemini.dfy ===
/** The image-identification gateway: the chat request it sends, and how it turns the
    provider's reply into an identification record or an error. The reply and
    `JSON.parse` are inputs, so the gateway is a pure function. */
module Gemini {
  import opened Wrappers
  import opened Text
  import opened Js
  import opened Http

  const Fence: string := "```"
  const DefaultModel: string := "gpt-4o-mini"
  const DefaultMime: string := "image/jpeg"
  const ChatUrl: string := "https://api.openai.com/v1/chat/completions"
  const MaxTokens: nat := 1000
  const EmptyReply: string := "Empty OpenAI response"
  /** What the engine throws when the reply's content is truthy but not a string. */
  const TrimNotAFunction: string := "text.trim is not a function"
  /** The marker for a field the model could not read. */
  const Unknown: Json := JStr("unknown")
  /** Where a chat completion keeps the reply text. */
  const ContentPath: seq<string> := ["choices", "0", "message", "content"]

  // ---------------------------------------------------------------------------
  // Code-fence stripping
  // ---------------------------------------------------------------------------

  /** The two patterns applied in turn: an opener "```json" (letters in any case), then
      a bare opener "```"; each is followed by optional whitespace, the lazily matched
      captured text, optional whitespace and a closing "```". */
  datatype FenceKind = JsonFence | PlainFence

  function OpenerLength(k: FenceKind): nat {
    match k
    case JsonFence => 7
    case PlainFence => 3
  }

  /** ASCII lower-casing, which is all a case-insensitive regular expression without
      the `u` flag applies to a pattern made of ASCII letters. */
  function LowerAscii(c: char): char {
    if 'A' <= c <= 'Z' then (c as int + 32) as char else c
  }

  predicate IsJsonTag(t: string) {
    |t| == 4 && LowerAscii(t[0]) == 'j' && LowerAscii(t[1]) == 's'
    && LowerAscii(t[2]) == 'o' && LowerAscii(t[3]) == 'n'
  }

  predicate OpensAt(s: string, k: FenceKind, i: nat) {
    OccursAt(s, Fence, i)
    && match k
       case PlainFence => true
       case JsonFence => i + 7 <= |s| && IsJsonTag(s[i + 3..i + 7])
  }

  /** The leftmost opener at or after `from`. */
  function NextOpener(s: string, k: FenceKind, from: nat): (r: Option<nat>)
    ensures r.Some? ==> from <= r.value && OpensAt(s, k, r.value)
    ensures r.Some? ==> forall j | from <= j < r.value :: !OpensAt(s, k, j)
    ensures r.None? ==> forall j | from <= j :: !OpensAt(s, k, j)
    decreases |s| - from
  {
    if from + |Fence| > |s| then None
    else if OpensAt(s, k, from) then Some(from)
    else NextOpener(s, k, from + 1)
  }

  /** One global `replace` of a fence pattern by its captured text. The leftmost opener
      is matched with the first "```" after it; the captured text is what lies between,
      without surrounding whitespace; scanning resumes after the closer. When the
      leftmost opener has no closer, no later opener has one either, so nothing more
      is replaced. */
  function ReplaceFences(s: string, k: FenceKind): string
    decreases |s|
  {
    match NextOpener(s, k, 0)
    case None => s
    case Some(p) =>
      var rest := s[p + OpenerLength(k)..];
      match IndexOf(rest, Fence)
      case None => s
      case Some(t) => s[..p] + Trim(rest[..t]) + ReplaceFences(rest[t + |Fence|..], k)
  }

  /** `stripCodeFences`: both replacements, then a trim. */
  function StripCodeFences(s: string): (r: string)
    ensures Trimmed(r)
  {
    Trim(ReplaceFences(ReplaceFences(s, JsonFence), PlainFence))
  }

  lemma NoOpenerWithoutFence(s: string, k: FenceKind)
    requires !Contains(s, Fence)
    ensures NextOpener(s, k, 0).None?
  {
    forall j | 0 <= j
      ensures !OpensAt(s, k, j)
    {
      if j <= |s| {
        assert !OccursAt(s, Fence, j);
      }
    }
  }

  /** Text without "```" passes through a replacement untouched. */
  lemma ReplaceWithoutFence(s: string, k: FenceKind)
    requires !Contains(s, Fence)
    ensures ReplaceFences(s, k) == s
  {
    NoOpenerWithoutFence(s, k);
  }

  /** Text without "```" is only trimmed. */
  lemma StripWithoutFence(s: string)
    requires !Contains(s, Fence)
    ensures StripCodeFences(s) == Trim(s)
  {
    ReplaceWithoutFence(s, JsonFence);
    ReplaceWithoutFence(s, PlainFence);
  }

  predicate NoBacktick(s: string) {
    forall i | 0 <= i < |s| :: s[i] != '`'
  }

  lemma NoBacktickNoFence(s: string)
    requires NoBacktick(s)
    ensures !Contains(s, Fence)
  {
    MissingCharNotContained(s, Fence, 0);
  }

  lemma NoBacktickTrim(s: string)
    requires NoBacktick(s)
    ensures NoBacktick(Trim(s))
  {
    TrimIsInfix(s);
  }

  lemma NoBacktickJoin(a: string, b: string, c: string)
    requires NoBacktick(a) && NoBacktick(b) && NoBacktick(c)
    ensures NoBacktick(a + b + c)
  {
  }

  /** The first "```" in `body + "```" + post` is the one right after a backtick-free
      `body`. */
  lemma FirstFenceIn(body: string, post: string)
    requires NoBacktick(body)
    ensures IndexOf(body + Fence + post, Fence) == Some(|body|)
  {
    var rest := body + Fence + post;
    assert rest[|body|..|body| + 3] == Fence;
    assert OccursAt(rest, Fence, |body|);
    forall j | 0 <= j < |body|
      ensures !OccursAt(rest, Fence, j)
    {
      assert rest[j] == body[j];
    }
    var r := IndexOf(rest, Fence);
    assert r.Some?;
    assert !(r.value < |body|);
    assert !(r.value > |body|);
  }

  /** `NextOpener` is pinned down by the opener it finds and the absence of earlier ones. */
  lemma NextOpenerIs(s: string, k: FenceKind, p: nat)
    requires OpensAt(s, k, p)
    requires forall j | 0 <= j < p :: !OpensAt(s, k, j)
    ensures NextOpener(s, k, 0) == Some(p)
  {
    var r := NextOpener(s, k, 0);
    assert r.Some?;
    assert !(r.value < p);
    assert !(r.value > p);
  }

  /** A backtick-free prefix holds no opener. */
  lemma NoOpenerInPrefix(s: string, pre: string, k: FenceKind)
    requires NoBacktick(pre) && |pre| <= |s| && s[..|pre|] == pre
    ensures forall j | 0 <= j < |pre| :: !OpensAt(s, k, j)
  {
    forall j | 0 <= j < |pre|
      ensures !OpensAt(s, k, j)
    {
      assert s[j] == pre[j];
      assert !OccursAt(s, Fence, j);
    }
  }

  /** The last step of the replacement: with the opener and its closer known and no
      "```" after the closer, the fenced text is replaced and the rest is kept. */
  lemma ReplaceStep(s: string, k: FenceKind, p: nat, t: nat)
    requires NextOpener(s, k, 0) == Some(p) && p + OpenerLength(k) <= |s|
    requires IndexOf(s[p + OpenerLength(k)..], Fence) == Some(t)
    requires !Contains(s[p + OpenerLength(k)..][t + |Fence|..], Fence)
    ensures ReplaceFences(s, k) ==
      s[..p] + Trim(s[p + OpenerLength(k)..][..t]) + s[p + OpenerLength(k)..][t + |Fence|..]
  {
    var rest := s[p + OpenerLength(k)..];
    ReplaceWithoutFence(rest[t + |Fence|..], k);
  }

  /** The leftmost opener without a closer ends the replacement. */
  lemma ReplaceNoCloser(s: string, k: FenceKind, p: nat)
    requires NextOpener(s, k, 0) == Some(p) && p + OpenerLength(k) <= |s|
    requires !Contains(s[p + OpenerLength(k)..], Fence)
    ensures ReplaceFences(s, k) == s
  {
  }

  /** A "```json" fence is replaced by its trimmed body in the first pass. */
  lemma JsonFencePass(pre: string, tag: string, body: string, post: string)
    requires NoBacktick(pre) && NoBacktick(body) && NoBacktick(post) && IsJsonTag(tag)
    ensures ReplaceFences(pre + Fence + tag + body + Fence + post, JsonFence) == pre + Trim(body) + post
  {
    assert pre + Fence + tag + body + Fence + post == pre + (Fence + tag) + body + Fence + post;
    ReplaceFencedBody(pre, Fence + tag, body, post, JsonFence);
  }

  /** The opener of a pattern, written out. */
  predicate IsOpener(open: string, k: FenceKind) {
    |open| == OpenerLength(k) && open[..3] == Fence && (k.JsonFence? ==> IsJsonTag(open[3..]))
  }

  /** An opener after a backtick-free prefix is the first one. */
  lemma OpenerFound(pre: string, open: string, rest: string, k: FenceKind)
    requires NoBacktick(pre) && IsOpener(open, k)
    ensures NextOpener(pre + open + rest, k, 0) == Some(|pre|)
  {
    var s := pre + open + rest;
    var p := |pre|;
    assert s[..p] == pre;
    assert s[p..p + 3] == open[..3];
    if k.JsonFence? {
      assert s[p + 3..p + 7] == open[3..];
    }
    assert OpensAt(s, k, p);
    NoOpenerInPrefix(s, pre, k);
    NextOpenerIs(s, k, p);
  }

  /** One fence, opened by either pattern, around a backtick-free body in backtick-free
      text is replaced by the trimmed body. */
  lemma ReplaceFencedBody(pre: string, open: string, body: string, post: string, k: FenceKind)
    requires NoBacktick(pre) && NoBacktick(body) && NoBacktick(post) && IsOpener(open, k)
    ensures ReplaceFences(pre + open + body + Fence + post, k) == pre + Trim(body) + post
  {
    var rest := body + Fence + post;
    var s := pre + open + rest;
    assert pre + open + body + Fence + post == s;
    OpenerFound(pre, open, rest, k);
    assert s[|pre| + OpenerLength(k)..] == rest;
    assert s[..|pre|] == pre;
    FirstFenceIn(body, post);
    assert rest[..|body|] == body;
    assert rest[|body| + 3..] == post;
    NoBacktickNoFence(post);
    ReplaceStep(s, k, |pre|, |body|);
  }

  /** A fenced reply `pre + "```json" + body + "```" + post` without other backticks
      loses its fence: what remains is the trimmed body between `pre` and `post`. */
  lemma StripJsonFence(pre: string, tag: string, body: string, post: string)
    requires NoBacktick(pre) && NoBacktick(body) && NoBacktick(post) && IsJsonTag(tag)
    ensures StripCodeFences(pre + Fence + tag + body + Fence + post) == Trim(pre + Trim(body) + post)
  {
    JsonFencePass(pre, tag, body, post);
    NoBacktickTrim(body);
    NoBacktickJoin(pre, Trim(body), post);
    NoBacktickNoFence(pre + Trim(body) + post);
    ReplaceWithoutFence(pre + Trim(body) + post, PlainFence);
  }

  /** The body does not begin with a letter-case variant of "json", which would make the
      bare fence an opener of the first pattern. */
  predicate NoJsonPrefix(body: string) {
    !(|body| >= 4 && IsJsonTag(body[..4]))
  }

  /** A window of four characters holding a backtick is no "json" tag. */
  lemma BacktickNotTag(s: string, j: nat, q: nat)
    requires j + 3 <= q < j + 7 <= |s| && s[q] == '`'
    ensures !IsJsonTag(s[j + 3..j + 7])
  {
    assert s[j + 3..j + 7][q - j - 3] == '`';
  }

  /** No "```json" opener starts inside the bare fence or its body. */
  lemma NoJsonOpenerInFence(s: string, pre: string, body: string, post: string, j: nat)
    requires s == pre + Fence + body + Fence + post
    requires NoBacktick(body) && NoJsonPrefix(body)
    requires |pre| <= j < |pre| + 3 + |body|
    ensures !OpensAt(s, JsonFence, j)
  {
    var c := |pre| + 3 + |body|;
    assert s[c] == '`' && s[c + 1] == '`' && s[c + 2] == '`';
    if j + 7 <= |s| && OccursAt(s, Fence, j) {
      if j + 3 <= c < j + 7 {
        BacktickNotTag(s, j, c);
      } else if c < j + 3 {
        BacktickNotTag(s, j, j + 3);
      } else if j == |pre| {
        assert s[j + 3..j + 7] == body[..4];
      }
    }
  }

  /** With a bare fence, the first pass finds no opener before the closing fence, and any
      opener from there on has no closer after it. */
  lemma PlainFenceFirstPass(pre: string, body: string, post: string)
    requires NoBacktick(pre) && NoBacktick(body) && NoBacktick(post) && NoJsonPrefix(body)
    ensures ReplaceFences(pre + Fence + body + Fence + post, JsonFence) == pre + Fence + body + Fence + post
  {
    var s := pre + Fence + body + Fence + post;
    var c := |pre| + 3 + |body|;
    NoJsonOpenerBeforeClose(pre, body, post);
    var r := NextOpener(s, JsonFence, 0);
    if r.Some? {
      var p := r.value;
      assert p >= c;
      assert p + OpenerLength(JsonFence) <= |s|;
      NoFenceAfterClose(s, pre, body, post, p);
      ReplaceNoCloser(s, JsonFence, p);
    }
  }

  /** Up to the closing fence, a bare-fenced reply holds no "```json" opener. */
  lemma NoJsonOpenerBeforeClose(pre: string, body: string, post: string)
    requires NoBacktick(pre) && NoBacktick(body) && NoBacktick(post) && NoJsonPrefix(body)
    ensures var s := pre + Fence + body + Fence + post;
      forall j | 0 <= j < |pre| + 3 + |body| :: !OpensAt(s, JsonFence, j)
  {
    var s := pre + Fence + body + Fence + post;
    assert s[..|pre|] == pre;
    NoOpenerInPrefix(s, pre, JsonFence);
    forall j | |pre| <= j < |pre| + 3 + |body|
      ensures !OpensAt(s, JsonFence, j)
    {
      NoJsonOpenerInFence(s, pre, body, post, j);
    }
  }

  /** Past the opening fence's end, from inside the closing fence on, no "```" is left. */
  lemma NoFenceAfterClose(s: string, pre: string, body: string, post: string, p: nat)
    requires s == pre + Fence + body + Fence + post && NoBacktick(post)
    requires |pre| + 3 + |body| <= p && p + OpenerLength(JsonFence) <= |s|
    ensures !Contains(s[p + OpenerLength(JsonFence)..], Fence)
  {
    var c := |pre| + 3 + |body|;
    assert s[c + 3..] == post;
    assert s[p + 7..] == post[p + 7 - c - 3..];
    NoBacktickNoFence(s[p + 7..]);
  }

  /** A bare fence around a body that does not start with "json" loses its fence too. */
  lemma StripPlainFence(pre: string, body: string, post: string)
    requires NoBacktick(pre) && NoBacktick(body) && NoBacktick(post) && NoJsonPrefix(body)
    ensures StripCodeFences(pre + Fence + body + Fence + post) == Trim(pre + Trim(body) + post)
  {
    PlainFenceFirstPass(pre, body, post);
    ReplaceFencedBody(pre, Fence, body, post, PlainFence);
  }

  // ---------------------------------------------------------------------------
  // Parsing the identification
  // ---------------------------------------------------------------------------

  /** The record returned when the reply is not valid JSON. */
  function Fallback(): (v: Json)
    ensures v.JObj? && v.fields.Keys == {"itemName", "brand", "model", "keywords", "marketingBullets"}
    ensures v.fields["itemName"] == Unknown && v.fields["brand"] == Unknown && v.fields["model"] == Unknown
    ensures v.fields["keywords"] == JStr("") && v.fields["marketingBullets"] == JArr([])
  {
    JObj(map[
      "itemName" := Unknown,
      "brand" := Unknown,
      "model" := Unknown,
      "keywords" := JStr(""),
      "marketingBullets" := JArr([])])
  }

  /** `safeJsonParse`: the parsed fence-stripped text, as is, or the fallback record;
      it never throws. */
  function SafeJsonParse(text: string, parse: Parser): (r: Json)
    ensures parse(StripCodeFences(text)).Failure? ==> r == Fallback()
    ensures parse(StripCodeFences(text)).Success? ==> r == parse(StripCodeFences(text)).value
  {
    match parse(StripCodeFences(text))
    case Success(v) => v
    case Failure(_) => Fallback()
  }

  /** A reply fenced as "```json", surrounded only by whitespace, reads exactly like its
      unfenced body. */
  lemma FencedParsesAsBody(w1: string, tag: string, body: string, w2: string, parse: Parser)
    requires AllSpace(w1) && AllSpace(w2) && IsJsonTag(tag) && NoBacktick(body)
    ensures SafeJsonParse(w1 + Fence + tag + body + Fence + w2, parse) == SafeJsonParse(body, parse)
  {
    assert NoBacktick(w1) && NoBacktick(w2);
    StripJsonFence(w1, tag, body, w2);
    TrimPadded(w1, Trim(body), w2);
    NoBacktickNoFence(body);
    StripWithoutFence(body);
    TrimIdempotent(body);
  }

  /** The value reached from `v` by reading the keys in turn, `None` as soon as one is
      missing. */
  function Lookup(v: Json, path: seq<string>): (r: Option<Json>)
    ensures path == [] ==> r == Some(v)
    decreases |path|
  {
    if path == [] then Some(v)
    else
      match Get(v, path[0])
      case None => None
      case Some(w) => Lookup(w, path[1..])
  }

  /** The reply text: the value at `choices[0].message.content` when it is truthy, the
      empty string otherwise. */
  function ReplyContent(data: Json): (c: Json)
    ensures var v := Lookup(data, ContentPath);
      if v.Some? && Truthy(v.value) then c == v.value else c == JStr("")
  {
    var v := Chain(Chain(Chain(Chain(Some(data), "choices"), "0"), "message"), "content");
    LookupIsChain(data);
    if v.Some? && Truthy(v.value) then v.value else JStr("")
  }

  /** Optional chaining along the content path is a lookup along it. */
  lemma LookupIsChain(data: Json)
    ensures Lookup(data, ContentPath) == Chain(Chain(Chain(Chain(Some(data), "choices"), "0"), "message"), "content")
  {
    var p := ContentPath;
    assert p[1..] == ["0", "message", "content"];
    assert p[1..][1..] == ["message", "content"];
    assert p[1..][1..][1..] == ["content"];
    assert p[1..][1..][1..][1..] == [];
  }

  /** What `identifyImage` does with the reply: a transport failure is rethrown, a non-ok
      status raises "OpenAI HTTP <status>: <body>" before any parsing, an unparsable ok
      body raises the parser's error, absent or blank content raises "Empty OpenAI
      response", and otherwise the content goes through `safeJsonParse`. */
  function ReadIdentification(reply: Transport, parse: Parser): (r: Result<Json, Error>)
    ensures reply.NetworkFailure? ==> r == Failure(Error(reply.message, None))
    ensures reply.Delivered? && !IsOk(reply.status) ==>
      r == Failure(Error("OpenAI HTTP " + IntToString(reply.status) + ": " + reply.text, None))
    ensures r.Success? ==> reply.Delivered? && IsOk(reply.status) && parse(reply.text).Success?
    ensures r.Failure? ==> r.error.details.None?
  {
    match reply
    case NetworkFailure(m) => Failure(Error(m, None))
    case Delivered(status, text) =>
      if !IsOk(status) then
        Failure(Error("OpenAI HTTP " + IntToString(status) + ": " + text, None))
      else
        match parse(text)
        case Failure(m) => Failure(Error(m, None))
        case Success(data) =>
          match ReplyContent(data)
          case JStr(t) =>
            if Trim(t) == "" then Failure(Error(EmptyReply, None))
            else Success(SafeJsonParse(t, parse))
          case _ => Failure(Error(TrimNotAFunction, None))
  }

  /** A failed status never reaches the parser: any two parsers give the same error. */
  lemma NonOkIgnoresParser(status: int, text: string, p1: Parser, p2: Parser)
    requires !IsOk(status)
    ensures ReadIdentification(Delivered(status, text), p1) == ReadIdentification(Delivered(status, text), p2)
    ensures ReadIdentification(Delivered(status, text), p1).Failure?
  {
  }

  /** A reply whose content is absent, falsy, or a string of whitespace only is an
      error. */
  lemma BlankContentFails(status: int, text: string, parse: Parser, data: Json)
    requires IsOk(status) && parse(text) == Success(data)
    requires var v := Lookup(data, ContentPath);
      v.None? || !Truthy(v.value) || (v.value.JStr? && Trim(v.value.s) == "")
    ensures ReadIdentification(Delivered(status, text), parse) == Failure(Error(EmptyReply, None))
  {
    var c := ReplyContent(data);
    assert c.JStr? && Trim(c.s) == "" by {
      if c == JStr("") {
        TrimPadded([], [], []);
        assert [] + [] + [] == "";
      }
    }
  }

  /** A reply with non-blank string content yields the safely parsed content. */
  lemma ContentIsParsed(status: int, text: string, parse: Parser, data: Json, t: string)
    requires IsOk(status) && parse(text) == Success(data)
    requires ReplyContent(data) == JStr(t) && Trim(t) != ""
    ensures ReadIdentification(Delivered(status, text), parse) == Success(SafeJsonParse(t, parse))
  {
  }

  /** The content a chat completion carries at `choices[0].message.content`. */
  function Completion(content: Json): Json {
    JObj(map["choices" := JArr([JObj(map["message" := JObj(map["content" := content])])])])
  }

  /** The content of a completion is what is read, and a falsy content reads as "". */
  lemma CompletionContent(content: Json)
    ensures ReplyContent(Completion(content)) == if Truthy(content) then content else JStr("")
  {
    IndexKeyRoundTrip(0);
    assert DigitsValue("0") == 0;
    LookupIsChain(Completion(content));
  }

  // ---------------------------------------------------------------------------
  // The request
  // ---------------------------------------------------------------------------

  /** The configured model, or the default when unset or empty. */
  function ModelName(configured: Option<string>): (m: string)
    ensures m != ""
    ensures configured.Some? && configured.value != "" ==> m == configured.value
    ensures configured.None? || configured == Some("") ==> m == DefaultModel
  {
    if configured.Some? && configured.value != "" then configured.value else DefaultModel
  }

  /** `data:<mime>;base64,<payload>`. */
  function ImageUrl(mime: string, payload: string): (u: string)
    ensures |u| == 13 + |mime| + |payload|
    ensures u[..5] == "data:" && u[5..5 + |mime|] == mime
    ensures u[5 + |mime|..13 + |mime|] == ";base64," && u[13 + |mime|..] == payload
  {
    "data:" + mime + ";base64," + payload
  }

  /** The payload of a data URL: if there is a comma, the text between the first and
      the second comma (`split(',')[1]`); otherwise the text unchanged. */
  function DataUrlPayload(b: string): (p: string)
    ensures ',' in b ==> ',' !in p && exists i :: FieldAfterFirst(b, ',', p, i)
    ensures ',' !in b ==> p == b
  {
    if ',' in b then
      SecondPieceBetween(b, ',');
      Split(b, ",")[1]
    else
      b
  }

  /** A data URL whose media type has no comma hands back its payload. */
  lemma DataUrlRoundTrip(mime: string, payload: string)
    requires ',' !in mime && ',' !in payload
    ensures DataUrlPayload(ImageUrl(mime, payload)) == payload
  {
    var head := "data:" + mime + ";base64";
    assert ',' !in head;
    assert ImageUrl(mime, payload) == head + "," + payload;
    assert !Contains(head, ",") by {
      forall i | 0 <= i <= |head|
        ensures !OccursAt(head, ",", i)
      {
        if i + 1 <= |head| {
          assert head[i..i + 1][0] == head[i];
        }
      }
    }
    assert !Contains(payload, ",") by {
      forall i | 0 <= i <= |payload|
        ensures !OccursAt(payload, ",", i)
      {
        if i + 1 <= |payload| {
          assert payload[i..i + 1][0] == payload[i];
        }
      }
    }
    UnborderedByLastChar(",");
    SplitAfterFree(head, ",", payload);
    SplitFree(payload, ",");
  }

  /** The chat request that `identifyImage` posts. */
  datatype ChatRequest = ChatRequest(url: string, authorization: string, model: string, imageUrl: string, maxTokens: nat)

  /** `identifyFromImage`: strip a data-URL header, default the media type, and build
      the request for the configured model. */
  function IdentifyRequest(configuredModel: Option<string>, apiKey: string, base64: string, mime: Option<string>): (q: ChatRequest)
    ensures q.url == ChatUrl && q.maxTokens == MaxTokens && q.model == ModelName(configuredModel)
    ensures q.authorization == "Bearer " + apiKey
    ensures q.imageUrl == ImageUrl(if mime.Some? then mime.value else DefaultMime, DataUrlPayload(base64))
  {
    var m := mime.GetOr(DefaultMime);
    var u := ImageUrl(m, DataUrlPayload(base64));
    ChatRequest(ChatUrl, "Bearer " + apiKey, ModelName(configuredModel), u, MaxTokens)
  }

  /** Sending a data URL through `identifyFromImage` together with its own media type
      forwards it unchanged. */
  lemma ForwardedPayload(configuredModel: Option<string>, apiKey: string, mime: string, payload: string)
    requires ',' !in mime && ',' !in payload
    ensures IdentifyRequest(configuredModel, apiKey, ImageUrl(mime, payload), Some(mime)).imageUrl == ImageUrl(mime, payload)
  {
    DataUrlRoundTrip(mime, payload);
  }

  /** Sending a data URL without a media type, as the page does, keeps the payload but
      labels it `image/jpeg`, whatever type the URL named. */
  lemma UntypedUrlBecomesJpeg(configuredModel: Option<string>, apiKey: string, mime: string, payload: string)
    requires ',' !in mime && ',' !in payload
    ensures IdentifyRequest(configuredModel, apiKey, ImageUrl(mime, payload), None).imageUrl == ImageUrl(DefaultMime, payload)
  {
    DataUrlRoundTrip(mime, payload);
  }
}

=== FILE: handlers.dfy ===
/** The HTTP endpoints `/api/identify` and `/api/sold`, once as routes of the long-running
    server and once as serverless functions. Each is a function from the request and the
    gateway's reply to the request it sends on, if any, and the response. */
module Handlers {
  import opened Wrappers
  import opened Text
  import opened Js
  import opened Http
  import opened Utils
  import Gemini
  import RapidAsp

  const ImageRequired: string := "imageBase64 required"
  const KeywordsRequired: string := "keywords required"
  const IdentifyFailed: string := "Gemini failed"
  const SoldFailed: string := "RapidAPI failed"
  const MethodNotAllowed: string := "Method not allowed"
  /** The provider is always asked for this many results. */
  const ProviderSize: int := 120
  /** The number of products returned when the query does not say. */
  const DefaultLimit: int := 10
  /** What the engine throws when `products` is read from a `null` provider body. */
  const NullProducts: string := "Cannot read properties of null (reading 'products')"

  /** The fields of the identify request body that the handler reads. */
  datatype IdentifyInput = IdentifyInput(imageBase64: Option<string>, mimeType: Option<string>)

  /** The query parameters of the sold request that the handler reads. */
  datatype SoldQuery = SoldQuery(keywords: Option<string>, limit: Option<string>)

  /** What the identify handler did: the chat request it sent, if any, and its response. */
  datatype IdentifyHandled = IdentifyHandled(request: Option<Gemini.ChatRequest>, response: Response)

  /** What the sold handler did: the search it sent, if any, its response, and the cache
      afterwards. */
  datatype SoldHandled = SoldHandled(request: Option<RapidAsp.SoldRequest>, response: Response, cache: map<string, Json>)

  /** The deployment settings the gateways read. */
  datatype Settings = Settings(model: Option<string>, openAiKey: string, host: Option<string>, rapidKey: string)

  /** The JSON codec, which the model treats as given. */
  datatype Codec = Codec(parse: Parser, stringify: Stringifier)

  /** An object with the given fields. */
  function Obj(fields: map<string, Json>): Json {
    JObj(fields)
  }

  /** The CORS headers a serverless function sets before looking at the request. */
  function Cors(methods: string): (h: map<string, string>)
    ensures h.Keys == {"Access-Control-Allow-Origin", "Access-Control-Allow-Methods", "Access-Control-Allow-Headers"}
    ensures h["Access-Control-Allow-Origin"] == "*" && h["Access-Control-Allow-Methods"] == methods
    ensures h["Access-Control-Allow-Headers"] == "Content-Type"
  {
    map["Access-Control-Allow-Origin" := "*",
        "Access-Control-Allow-Methods" := methods,
        "Access-Control-Allow-Headers" := "Content-Type"]
  }

  // ---------------------------------------------------------------------------
  // Identify
  // ---------------------------------------------------------------------------

  predicate HasImage(input: IdentifyInput) {
    input.imageBase64.Some? && input.imageBase64.value != ""
  }

  /** `{success: true, ...identified}`: the identification's own fields win. */
  function IdentifyEnvelope(identified: Json): (b: Json)
    ensures b.JObj?
    ensures forall k | k in Spread(identified) :: k in b.fields && b.fields[k] == Spread(identified)[k]
    ensures "success" !in Spread(identified) ==> "success" in b.fields && b.fields["success"] == JBool(true)
    ensures b.fields.Keys == Spread(identified).Keys + {"success"}
  {
    Obj(map["success" := JBool(true)] + Spread(identified))
  }

  /** The identify outcome of a call that reached the gateway. */
  function IdentifyOutcome(result: Result<Json, Error>): (r: (int, Json))
    ensures result.Success? ==> r == (200, IdentifyEnvelope(result.value))
    ensures result.Failure? ==> r.0 == 500
  {
    match result
    case Success(j) => (200, IdentifyEnvelope(j))
    case Failure(e) => (500, ErrorBody(IdentifyFailed, Some(Obj(map["message" := JStr(e.message)]))))
  }

  /** `POST /api/identify` of the server: 400 without an image and no call; otherwise
      the gateway's identification behind `success: true`, or 500 with its message. */
  function ServerIdentify(input: IdentifyInput, cfg: Settings, reply: Transport, codec: Codec): (h: IdentifyHandled)
    ensures !HasImage(input) ==> h.request.None? && h.response == ErrJson(400, ImageRequired, None)
    ensures HasImage(input) ==> h.request.Some? && h.request.value.model == Gemini.ModelName(cfg.model)
    ensures HasImage(input) ==>
      h.request == Some(Gemini.IdentifyRequest(cfg.model, cfg.openAiKey, input.imageBase64.value, input.mimeType))
    ensures HasImage(input) ==>
      var o := IdentifyOutcome(Gemini.ReadIdentification(reply, codec.parse));
      h.response.status == o.0 && h.response.body == Some(o.1)
  {
    if !HasImage(input) then IdentifyHandled(None, ErrJson(400, ImageRequired, None))
    else
      var q := Gemini.IdentifyRequest(cfg.model, cfg.openAiKey, input.imageBase64.value, input.mimeType);
      var o := IdentifyOutcome(Gemini.ReadIdentification(reply, codec.parse));
      IdentifyHandled(Some(q), Response(o.0, map[], Some(o.1)))
  }

  /** The serverless identify function: CORS headers always; OPTIONS answered empty,
      methods other than POST refused; a POST handled as by the server. */
  function ServerlessIdentify(verb: string, input: IdentifyInput, cfg: Settings, reply: Transport, codec: Codec): (h: IdentifyHandled)
    ensures h.response.headers == Cors("POST, OPTIONS")
    ensures verb == "OPTIONS" ==> h.request.None? && h.response.status == 200 && h.response.body.None?
    ensures verb != "OPTIONS" && verb != "POST" ==>
      h.request.None? && h.response.status == 405 && h.response.body == Some(ErrorBody(MethodNotAllowed, None))
  {
    var headers := Cors("POST, OPTIONS");
    if verb == "OPTIONS" then IdentifyHandled(None, Response(200, headers, None))
    else if verb != "POST" then IdentifyHandled(None, Response(405, headers, Some(ErrorBody(MethodNotAllowed, None))))
    else
      var h := ServerIdentify(input, cfg, reply, codec);
      IdentifyHandled(h.request, h.response.(headers := headers))
  }

  /** A POST to the serverless function sends the same request and answers with the same
      status and body as the server route. */
  lemma ServerlessIdentifyIsServer(input: IdentifyInput, cfg: Settings, reply: Transport, codec: Codec)
    ensures var a := ServerlessIdentify("POST", input, cfg, reply, codec);
      var b := ServerIdentify(input, cfg, reply, codec);
      a.request == b.request && a.response.status == b.response.status && a.response.body == b.response.body
  {
  }

  /** An identification that already has a `success` field keeps its own value. */
  lemma IdentifiedFieldsWin(identified: map<string, Json>)
    ensures IdentifyEnvelope(JObj(identified)).fields == map["success" := JBool(true)] + identified
    ensures "success" in identified ==> IdentifyEnvelope(JObj(identified)).fields["success"] == identified["success"]
  {
  }

  /** A failed identification reports the gateway's message under `details.message`. */
  lemma IdentifyFailureMessage(e: Error)
    ensures var o := IdentifyOutcome(Failure(e));
      o.1.JObj? && "details" in o.1.fields && o.1.fields["details"] == JObj(map["message" := JStr(e.message)])
      && "error" in o.1.fields && o.1.fields["error"] == JStr(IdentifyFailed)
  {
  }

  // ---------------------------------------------------------------------------
  // Sold
  // ---------------------------------------------------------------------------

  /** The trimmed keywords, "" when absent. */
  function Keywords(q: SoldQuery): (k: string)
    ensures Trimmed(k)
    ensures k == Trim(q.keywords.GetOr(""))
  {
    Trim(q.keywords.GetOr(""))
  }

  /** The keywords are blank, and the route answers 400, exactly when none are given or
      the given text is all whitespace. */
  lemma KeywordsBlank(q: SoldQuery)
    ensures Keywords(q) == "" <==> q.keywords.None? || AllSpace(q.keywords.value)
  {
    TrimBlank(q.keywords.GetOr(""));
  }

  /** The number of products to return. */
  function Limit(q: SoldQuery): int {
    ToInt(q.limit, DefaultLimit)
  }

  /** The result's `products` cut to the first `limit` entries, or none when `products`
      is not an array. */
  function Products(result: Json, limit: int): (p: seq<Json>)
    ensures forall xs :: Get(result, "products") == Some(JArr(xs)) ==> p == SliceTo(xs, limit)
    ensures (forall xs :: Get(result, "products") != Some(JArr(xs))) ==> p == []
  {
    match Get(result, "products")
    case Some(JArr(xs)) => SliceTo(xs, limit)
    case _ => []
  }

  /** The result's own fields over a default `success` of true, with `products`
      replaced by the cut list; a `null` result fails, as reading `products` from it
      throws. */
  function SoldEnvelope(result: Json, limit: int): (r: Result<Json, Error>)
    ensures result.JNull? <==> r.Failure?
    ensures r.Failure? ==> r.error == Error(NullProducts, None)
    ensures r.Success? ==> (r.value.JObj? && "products" in r.value.fields
      && r.value.fields["products"] == JArr(Products(result, limit)))
    ensures r.Success? ==> forall k | k in Spread(result) && k != "products" ::
      k in r.value.fields && r.value.fields[k] == Spread(result)[k]
    ensures r.Success? ==> r.value.fields.Keys == Spread(result).Keys + {"success", "products"}
    ensures r.Success? && "success" !in Spread(result) ==> r.value.fields["success"] == JBool(true)
  {
    if result.JNull? then Failure(Error(NullProducts, None))
    else Success(Obj(map["success" := JBool(true)] + Spread(result) + map["products" := JArr(Products(result, limit))]))
  }

  /** The body of a failed sold call: the message, and the error's `details` when truthy. */
  function SoldErrorDetails(e: Error): (d: Json)
    ensures d.JObj? && "message" in d.fields && d.fields["message"] == JStr(e.message)
    ensures "details" in d.fields <==> e.details.Some? && Truthy(e.details.value)
  {
    if e.details.Some? && Truthy(e.details.value) then
      Obj(map["message" := JStr(e.message), "details" := e.details.value])
    else
      Obj(map["message" := JStr(e.message)])
  }

  /** The status and body the sold route answers with once the gateway has answered. */
  function SoldOutcome(result: Result<Json, Error>, limit: int): (r: (int, Json))
    ensures r.0 == 200 || r.0 == 500
    ensures r.0 == 200 <==> result.Success? && !result.value.JNull?
    ensures result.Success? && !result.value.JNull? ==> r.1 == SoldEnvelope(result.value, limit).value
    ensures result.Failure? ==> r.1 == ErrorBody(SoldFailed, Some(SoldErrorDetails(result.error)))
    ensures result == Success(JNull) ==> r.1 == ErrorBody(SoldFailed, Some(SoldErrorDetails(Error(NullProducts, None))))
  {
    var shaped := match result
      case Success(v) => SoldEnvelope(v, limit)
      case Failure(e) => Failure(e);
    match shaped
    case Success(b) => (200, b)
    case Failure(e) => (500, ErrorBody(SoldFailed, Some(SoldErrorDetails(e))))
  }

  /** A failed sold call answers `{error: 'RapidAPI failed', details: {message}}`, with
      the gateway's `details` added inside when they are truthy; a `null` provider body
      fails with the message of reading `products` from `null`. */
  lemma SoldFailureMessage(result: Result<Json, Error>, limit: int)
    requires result.Failure? || result == Success(JNull)
    ensures var e := if result.Failure? then result.error else Error(NullProducts, None);
      var o := SoldOutcome(result, limit);
      o.0 == 500 && o.1.JObj? && o.1.fields.Keys == {"error", "details"}
      && o.1.fields["error"] == JStr(SoldFailed)
      && o.1.fields["details"].JObj? && o.1.fields["details"].fields["message"] == JStr(e.message)
      && ("details" in o.1.fields["details"].fields <==> e.details.Some? && Truthy(e.details.value))
  {
    var e := if result.Failure? then result.error else Error(NullProducts, None);
    var b := ErrorBody(SoldFailed, Some(SoldErrorDetails(e)));
    assert b.fields.Keys == {"error", "details"};
  }

  /** `GET /api/sold` of the server: 400 and no call for blank keywords; otherwise the
      cached gateway is asked for 120 results and the first `limit` products are
      returned. */
  function ServerSold(cache: map<string, Json>, q: SoldQuery, cfg: Settings, reply: Transport, codec: Codec): (h: SoldHandled)
    ensures Keywords(q) == "" ==> h.request.None? && h.cache == cache && h.response == ErrJson(400, KeywordsRequired, None)
    ensures Keywords(q) != "" ==>
      var c := RapidAsp.FindSold(cache, RapidAsp.HostName(cfg.host), cfg.rapidKey, Keywords(q), Some(ProviderSize), reply, codec.parse, codec.stringify);
      var o := SoldOutcome(c.result, Limit(q));
      h.request == c.request && h.cache == c.cache && h.response.status == o.0 && h.response.body == Some(o.1)
  {
    var keywords := Keywords(q);
    if keywords == "" then SoldHandled(None, ErrJson(400, KeywordsRequired, None), cache)
    else
      var c := RapidAsp.FindSold(cache, RapidAsp.HostName(cfg.host), cfg.rapidKey, keywords, Some(ProviderSize), reply, codec.parse, codec.stringify);
      var o := SoldOutcome(c.result, Limit(q));
      SoldHandled(c.request, Response(o.0, map[], Some(o.1)), c.cache)
  }

  /** The serverless sold function: CORS headers always; OPTIONS answered empty, methods
      other than GET refused; a GET asks the uncached gateway. */
  function ServerlessSold(verb: string, q: SoldQuery, cfg: Settings, reply: Transport, codec: Codec): (h: SoldHandled)
    ensures h.response.headers == Cors("GET, OPTIONS") && h.cache == map[]
    ensures verb == "OPTIONS" ==> h.request.None? && h.response.status == 200 && h.response.body.None?
    ensures verb != "OPTIONS" && verb != "GET" ==>
      h.request.None? && h.response.status == 405 && h.response.body == Some(ErrorBody(MethodNotAllowed, None))
    ensures verb == "GET" && Keywords(q) == "" ==>
      h.request.None? && h.response.status == 400 && h.response.body == Some(ErrorBody(KeywordsRequired, None))
  {
    var headers := Cors("GET, OPTIONS");
    if verb == "OPTIONS" then SoldHandled(None, Response(200, headers, None), map[])
    else if verb != "GET" then SoldHandled(None, Response(405, headers, Some(ErrorBody(MethodNotAllowed, None))), map[])
    else
      var keywords := Keywords(q);
      if keywords == "" then SoldHandled(None, Response(400, headers, Some(ErrorBody(KeywordsRequired, None))), map[])
      else
        var x := RapidAsp.FindSoldServerless(RapidAsp.HostName(cfg.host), cfg.rapidKey, keywords, Some(ProviderSize), reply, codec.parse, codec.stringify);
        var o := SoldOutcome(x.result, Limit(q));
        SoldHandled(Some(x.request), Response(o.0, headers, Some(o.1)), map[])
  }

  /** A GET to the serverless function behaves as the server route with nothing cached. */
  lemma ServerlessSoldIsColdServer(q: SoldQuery, cfg: Settings, reply: Transport, codec: Codec)
    ensures var a := ServerlessSold("GET", q, cfg, reply, codec);
      var b := ServerSold(map[], q, cfg, reply, codec);
      a.request == b.request && a.response.status == b.response.status && a.response.body == b.response.body
  {
    var keywords := Keywords(q);
    if keywords != "" {
      RapidAsp.MissIsServerless(map[], RapidAsp.HostName(cfg.host), cfg.rapidKey, keywords, Some(ProviderSize), reply, codec.parse, codec.stringify);
    }
  }

  /** Whenever the sold route sends a search, it asks for 120 results. */
  lemma SoldAsksFor120(cache: map<string, Json>, q: SoldQuery, cfg: Settings, reply: Transport, codec: Codec)
    ensures var h := ServerSold(cache, q, cfg, reply, codec);
      h.request.Some? ==> (h.request.value.body.JObj? && "max_search_results" in h.request.value.body.fields
        && h.request.value.body.fields["max_search_results"] == JStr("120"))
  {
    assert NatToString(120) == "120" by {
      assert NatToString(12) == "12" by {
        assert NatToString(1) == "1";
      }
    }
  }

  /** The products returned are a prefix of the provider's list: the first `limit` of
      them, or all but the last `-limit` for a negative limit. */
  lemma ProductsArePrefix(result: Json, limit: int, xs: seq<Json>)
    requires Get(result, "products") == Some(JArr(xs))
    ensures var p := Products(result, limit); |p| <= |xs| && p == xs[..|p|]
    ensures 0 <= limit ==> |Products(result, limit)| == (if limit < |xs| then limit else |xs|)
  {
  }

  /** A provider body without a `products` array yields none. */
  lemma NoProductsWithoutArray(result: Json, limit: int)
    requires result.JObj? && ("products" !in result.fields || !result.fields["products"].JArr?)
    ensures Products(result, limit) == []
  {
  }
}

=== FILE: http.dfy ===
/** What an HTTP exchange looks like from inside the core: a provider reply as
    `(status, body text)` or a transport failure, and a handler's response. */
module Http {
  import opened Wrappers
  import opened Js

  /** The outcome of one `fetch`: the reply's status and body text, or the error the
      transport threw. */
  datatype Transport = Delivered(status: int, text: string) | NetworkFailure(message: string)

  /** `resp.ok`. */
  predicate IsOk(status: int) {
    200 <= status <= 299
  }

  /** A response as the client sees it: status, headers set by the handler itself, and
      the serialized JSON body, or `None` for an empty body (`res.end()`). Keys holding
      `undefined` are already dropped, as `JSON.stringify` drops them. */
  datatype Response = Response(status: int, headers: map<string, string>, body: Option<Json>)
}

=== FILE: js.dfy ===
/** JavaScript values as they cross a JSON boundary, and the JavaScript coercions the
    core relies on: truthiness, `String(v)`, property reads, object spread, `parseInt`
    and `Array.prototype.slice`. */
module Js {
  import opened Wrappers
  import opened Text

  /** A value that `JSON.parse` can produce. Objects are maps: property enumeration
      order is not modelled. A number is kept as its `String(n)` text, since the core
      never computes with one. */
  datatype Json =
    | JNull
    | JBool(b: bool)
    | JNum(literal: string)
    | JStr(s: string)
    | JArr(items: seq<Json>)
    | JObj(fields: map<string, Json>)

  /** `JSON.parse`: the value, or the message of the `SyntaxError` it throws. */
  type Parser = string -> Result<Json, string>

  /** `JSON.stringify` on a value `JSON.parse` could have produced. */
  type Stringifier = Json -> string

  /** A thrown JavaScript error: its `message`, and its `details` property if it has one. */
  datatype Error = Error(message: string, details: Option<Json>)

  /** Truthiness: `null`, `false`, `0`, `-0` and `""` are falsy, everything else truthy. */
  predicate Truthy(v: Json) {
    match v
    case JNull => false
    case JBool(b) => b
    case JNum(t) => t != "0" && t != "-0"
    case JStr(s) => s != ""
    case JArr(_) => true
    case JObj(_) => true
  }

  /** `typeof v === 'object'`, which holds for `null` as well. */
  predicate IsObjectType(v: Json) {
    v.JNull? || v.JArr? || v.JObj?
  }

  /** Whether `String(v)` (or `v.toString()`) throws. Parsed JSON holds no functions, so an
      object with an own `toString` key has no callable `toString`; its inherited
      `valueOf` returns the object itself, so no primitive is found and a TypeError is
      raised. An array throws when one of its elements does, as joining converts each. */
  predicate DisplayThrows(v: Json)
    decreases v
  {
    match v
    case JObj(m) => "toString" in m
    case JArr(xs) => exists i | 0 <= i < |xs| :: DisplayThrows(xs[i])
    case _ => false
  }

  /** `String(v)` when it does not throw (see `DisplayThrows`). An array joins its
      elements with commas, showing `null` as "". */
  function ToDisplay(v: Json): string
    decreases v
  {
    match v
    case JNull => "null"
    case JBool(b) => if b then "true" else "false"
    case JNum(t) => t
    case JStr(s) => s
    case JArr(xs) =>
      Join(seq(|xs|, i requires 0 <= i < |xs| => if xs[i].JNull? then "" else ToDisplay(xs[i])), ",")
    case JObj(_) => "[object Object]"
  }

  /** A canonical array index: decimal digits without a leading zero. */
  predicate IsIndexKey(key: string) {
    |key| > 0 && AllDigits(key) && (key == "0" || key[0] != '0')
  }

  lemma IndexKeyRoundTrip(n: nat)
    ensures IsIndexKey(NatToString(n)) && DigitsValue(NatToString(n)) == n
  {
    NatToStringValue(n);
  }

  /** `v[key]` on a value that is not `null`: an own property of an object, an element
      of an array or a character of a string, or `length`; `None` is `undefined`. */
  function Get(v: Json, key: string): (r: Option<Json>)
    ensures v.JObj? ==> (r.Some? <==> key in v.fields)
    ensures v.JObj? && key in v.fields ==> r == Some(v.fields[key])
    ensures v.JArr? && IsIndexKey(key) ==>
      r == (if DigitsValue(key) < |v.items| then Some(v.items[DigitsValue(key)]) else None)
    ensures v.JNull? || v.JBool? || v.JNum? ==> r.None?
  {
    match v
    case JObj(m) => if key in m then Some(m[key]) else None
    case JArr(xs) =>
      if key == "length" then Some(JNum(NatToString(|xs|)))
      else if IsIndexKey(key) && DigitsValue(key) < |xs| then Some(xs[DigitsValue(key)])
      else None
    case JStr(s) =>
      if key == "length" then Some(JNum(NatToString(|s|)))
      else if IsIndexKey(key) && DigitsValue(key) < |s| then Some(JStr([s[DigitsValue(key)]]))
      else None
    case _ => None
  }

  /** `v?.[key]`: `undefined` and `null` short-circuit to `undefined`. */
  function Chain(v: Option<Json>, key: string): (r: Option<Json>)
    ensures v.None? || v == Some(JNull) ==> r.None?
  {
    match v
    case None => None
    case Some(JNull) => None
    case Some(x) => Get(x, key)
  }

  lemma NatToStringInjectiveAll()
    ensures forall a: nat, b: nat :: NatToString(a) == NatToString(b) ==> a == b
  {
    forall a: nat, b: nat | NatToString(a) == NatToString(b)
      ensures a == b
    {
      NatToStringInjective(a, b);
    }
  }

  /** `{...xs}` for an array: each element under its index key. */
  function SpreadItems(xs: seq<Json>): (m: map<string, Json>)
    ensures forall i | 0 <= i < |xs| :: NatToString(i) in m && m[NatToString(i)] == xs[i]
    ensures forall k | k in m :: IsIndexKey(k) && DigitsValue(k) < |xs|
  {
    NatToStringInjectiveAll();
    var m := map i | 0 <= i < |xs| :: NatToString(i) := xs[i];
    forall i | 0 <= i < |xs|
      ensures NatToString(i) in m && m[NatToString(i)] == xs[i]
    {
      assert NatToString(i) in m;
    }
    assert forall k | k in m :: exists i | 0 <= i < |xs| :: k == NatToString(i);
    forall k | k in m
      ensures IsIndexKey(k) && DigitsValue(k) < |xs|
    {
      var i :| 0 <= i < |xs| && k == NatToString(i);
      IndexKeyRoundTrip(i);
    }
    m
  }

  /** The own enumerable properties that `{...v}` copies: an object's properties, an
      array's elements or a string's characters under their index keys, and nothing for
      `null`, booleans and numbers. */
  function Spread(v: Json): (m: map<string, Json>)
    ensures v.JObj? ==> m == v.fields
    ensures v.JArr? ==> m == SpreadItems(v.items)
    ensures v.JNull? || v.JBool? || v.JNum? ==> m == map[]
  {
    match v
    case JObj(fields) => fields
    case JArr(xs) => SpreadItems(xs)
    case JStr(s) => SpreadItems(seq(|s|, i requires 0 <= i < |s| => JStr([s[i]])))
    case _ => map[]
  }

  /** `parseInt(s, 10)`, with `None` for `NaN`: leading whitespace is skipped, then
      an optional sign and the longest run of decimal digits are read. */
  function ParseInt(s: string): (r: Option<int>)
  {
    ParseSigned(TrimStart(s))
  }

  /** An optional sign, then the longest run of decimal digits; what follows is
      ignored. */
  function ParseSigned(t: string): (r: Option<int>)
  {
    if |t| > 0 && t[0] == '-' then
      match LeadingNumber(t[1..])
      case None => None
      case Some(n) => Some(-n)
    else if |t| > 0 && t[0] == '+' then LeadingNumber(t[1..])
    else LeadingNumber(t)
  }

  /** The value of the leading run of decimal digits, `None` when there is none. */
  function LeadingNumber(u: string): (r: Option<int>)
    ensures r.None? <==> u == [] || !IsDigit(u[0])
    ensures r.Some? ==> r.value >= 0
  {
    var n := DigitRun(u);
    if n == 0 then None else Some(DigitsValue(u[..n]))
  }

  lemma LeadingNumberOfDigits(ds: string, rest: string)
    requires |ds| > 0 && AllDigits(ds)
    requires rest == [] || !IsDigit(rest[0])
    ensures LeadingNumber(ds + rest) == Some(DigitsValue(ds))
  {
    DigitRunOfDigits(ds, rest);
    assert (ds + rest)[..|ds|] == ds;
  }

  lemma ParseSignedNegative(u: string)
    requires |u| > 0 && IsDigit(u[0])
    ensures ParseSigned("-" + u) == Some(-LeadingNumber(u).value)
  {
    assert ("-" + u)[1..] == u;
  }

  lemma ParseSignedUnsigned(u: string)
    requires |u| > 0 && IsDigit(u[0])
    ensures ParseSigned(u) == LeadingNumber(u)
  {
  }

  lemma ParseSignedOfString(n: int, rest: string)
    requires rest == [] || !IsDigit(rest[0])
    ensures ParseSigned(IntToString(n) + rest) == Some(n)
  {
    if n < 0 {
      ParseSignedOfNegative(-n, rest);
    } else {
      ParseSignedOfNat(n, rest);
    }
  }

  lemma ParseSignedOfNat(m: nat, rest: string)
    requires rest == [] || !IsDigit(rest[0])
    ensures ParseSigned(NatToString(m) + rest) == Some(m)
  {
    var ds := NatToString(m);
    NatToStringValue(m);
    LeadingNumberOfDigits(ds, rest);
    assert (ds + rest)[0] == ds[0];
    ParseSignedUnsigned(ds + rest);
  }

  lemma ParseSignedOfNegative(m: nat, rest: string)
    requires m > 0 && (rest == [] || !IsDigit(rest[0]))
    ensures ParseSigned("-" + NatToString(m) + rest) == Some(-(m as int))
  {
    var ds := NatToString(m);
    NatToStringValue(m);
    LeadingNumberOfDigits(ds, rest);
    assert (ds + rest)[0] == ds[0];
    assert "-" + ds + rest == "-" + (ds + rest);
    ParseSignedNegative(ds + rest);
  }

  /** `parseInt` reads back what `String` wrote, whatever non-digit follows it. */
  lemma ParseIntOfString(w: string, n: int, rest: string)
    requires AllSpace(w)
    requires rest == [] || !IsDigit(rest[0])
    ensures ParseInt(w + IntToString(n) + rest) == Some(n)
  {
    var t := IntToString(n) + rest;
    assert w + IntToString(n) + rest == w + t;
    assert t[0] == IntToString(n)[0];
    TrimStartSkips(w, t);
    ParseSignedOfString(n, rest);
  }

  /** `xs.slice(0, end)`: a negative `end` counts back from the end of the array, and
      the bound is clamped to the array. */
  function SliceTo<T>(xs: seq<T>, end: int): (r: seq<T>)
    ensures |r| <= |xs| && r == xs[..|r|]
    ensures 0 <= end ==> |r| == (if end < |xs| then end else |xs|)
    ensures end < 0 ==> |r| == (if -end < |xs| then |xs| + end else 0)
  {
    if end < 0 then
      (if -end < |xs| then xs[..|xs| + end] else [])
    else
      (if end < |xs| then xs[..end] else xs)
  }

  /** A negative bound drops exactly that many trailing elements. */
  lemma SliceNegativeDropsTail<T>(xs: seq<T>, k: nat)
    requires 0 < k <= |xs|
    ensures SliceTo(xs, -(k as int)) + xs[|xs| - k..] == xs
  {
  }
}

=== FILE: rapid_asp.dfy ===
/** The sold-listings gateway: the request it sends to the completed-items search, how it
    reads the reply, and, in the long-running server, the cache in front of it. The
    reply, `JSON.parse` and `JSON.stringify` are inputs; the cache is explicit state. */
module RapidAsp {
  import opened Wrappers
  import opened Text
  import opened Js
  import opened Http

  const DefaultHost: string := "ebay-average-selling-price.p.rapidapi.com"
  const DefaultSize: nat := 120
  const FallbackSize: nat := 240
  const KeyHeader: string := "x-rapidapi-key"
  const HostHeader: string := "x-rapidapi-host"
  const Redacted: string := "***REDACTED***"

  // ---------------------------------------------------------------------------
  // The request
  // ---------------------------------------------------------------------------

  /** The result sizes the provider accepts. */
  predicate Allowed(n: int) {
    n == 60 || n == 120 || n == 240
  }

  /** The requested size if the provider accepts it, 240 otherwise, 120 when omitted. */
  function ClampSize(requested: Option<int>): (n: nat)
    ensures Allowed(n)
    ensures requested.None? ==> n == DefaultSize
    ensures requested.Some? && Allowed(requested.value) ==> n == requested.value
    ensures requested.Some? && !Allowed(requested.value) ==> n == FallbackSize
  {
    match requested
    case None => DefaultSize
    case Some(v) => if Allowed(v) then v else FallbackSize
  }

  /** Clamping a clamped size changes nothing. */
  lemma ClampIdempotent(requested: Option<int>)
    ensures ClampSize(Some(ClampSize(requested))) == ClampSize(requested)
  {
  }

  /** The configured host, or the default when unset or empty. */
  function HostName(configured: Option<string>): (h: string)
    ensures h != ""
    ensures configured.Some? && configured.value != "" ==> h == configured.value
    ensures configured.None? || configured == Some("") ==> h == DefaultHost
  {
    if configured.Some? && configured.value != "" then configured.value else DefaultHost
  }

  /** `sold:<keywords>:<size>`. */
  function CacheKey(keywords: string, size: nat): (k: string)
    ensures StartsWith(k, "sold:")
  {
    "sold:" + keywords + ":" + NatToString(size)
  }

  lemma ColonNotDigit(d: string)
    requires AllDigits(d)
    ensures ':' !in d
  {
    forall i | 0 <= i < |d|
      ensures d[i] != ':'
    {
      assert IsDigit(d[i]);
    }
  }

  /** Distinct searches get distinct keys, because the size is the colon-free suffix
      after the last `:`. */
  lemma CacheKeyInjective(k1: string, n1: nat, k2: string, n2: nat)
    requires CacheKey(k1, n1) == CacheKey(k2, n2)
    ensures k1 == k2 && n1 == n2
  {
    var x1 := "sold:" + k1 + ":";
    var x2 := "sold:" + k2 + ":";
    ColonNotDigit(NatToString(n1));
    ColonNotDigit(NatToString(n2));
    SameTailAfterLast(x1, NatToString(n1), x2, NatToString(n2), ':');
    assert k1 == x1[5..|x1| - 1] && k2 == x2[5..|x2| - 1];
    NatToStringInjective(n1, n2);
  }

  /** The POST to the completed-items search. */
  datatype SoldRequest = SoldRequest(url: string, headers: map<string, string>, body: Json)

  function RequestFor(host: string, apiKey: string, keywords: string, size: nat): (q: SoldRequest)
    ensures q.url == "https://" + host + "/findCompletedItems"
    ensures q.body.JObj? && q.body.fields.Keys == {"keywords", "max_search_results"}
    ensures q.body.fields["keywords"] == JStr(keywords)
    ensures q.body.fields["max_search_results"] == JStr(NatToString(size))
    ensures q.headers.Keys == {KeyHeader, HostHeader, "Content-Type"}
    ensures q.headers[KeyHeader] == apiKey && q.headers[HostHeader] == host
    ensures q.headers["Content-Type"] == "application/json"
  {
    SoldRequest(
      "https://" + host + "/findCompletedItems",
      map[KeyHeader := apiKey, HostHeader := host, "Content-Type" := "application/json"],
      JObj(map["keywords" := JStr(keywords), "max_search_results" := JStr(NatToString(size))]))
  }

  /** The size in the request body reads back as the clamped size. */
  lemma RequestSizeReadsBack(host: string, apiKey: string, keywords: string, size: Option<int>)
    ensures var q := RequestFor(host, apiKey, keywords, ClampSize(size));
      q.body.JObj? && "max_search_results" in q.body.fields
      && q.body.fields["max_search_results"].JStr?
      && DigitsValue(q.body.fields["max_search_results"].s) == ClampSize(size)
  {
    NatToStringValue(ClampSize(size));
  }

  /** The headers as logged: the key replaced by a marker when set, "" otherwise. */
  function RedactHeaders(h: map<string, string>): (r: map<string, string>)
    ensures r.Keys == h.Keys + {KeyHeader}
    ensures forall k | k in h && k != KeyHeader :: r[k] == h[k]
    ensures r[KeyHeader] == (if KeyHeader in h && h[KeyHeader] != "" then Redacted else "")
  {
    h[KeyHeader := if KeyHeader in h && h[KeyHeader] != "" then Redacted else ""]
  }

  /** The logged request never shows a real key, and shows everything else as sent. */
  lemma LoggedRequestHidesKey(host: string, apiKey: string, keywords: string, size: nat)
    requires apiKey != Redacted
    ensures var q := RequestFor(host, apiKey, keywords, size); var logged := RedactHeaders(q.headers);
      logged[KeyHeader] != apiKey || apiKey == ""
    ensures var q := RequestFor(host, apiKey, keywords, size); var logged := RedactHeaders(q.headers);
      logged[HostHeader] == host && logged["Content-Type"] == "application/json"
  {
  }

  // ---------------------------------------------------------------------------
  // The reply
  // ---------------------------------------------------------------------------

  /** The reply body: `{}` for an empty text, the parsed value, or `{raw: text}` when the
      text is not JSON. */
  function DecodeBody(text: string, parse: Parser): (b: Json)
    ensures text == "" ==> b == JObj(map[])
    ensures text != "" && parse(text).Success? ==> b == parse(text).value
    ensures text != "" && parse(text).Failure? ==> b == JObj(map["raw" := JStr(text)])
  {
    if text == "" then JObj(map[])
    else match parse(text)
      case Success(v) => v
      case Failure(_) => JObj(map["raw" := JStr(text)])
  }

  /** Nothing in the reply text is lost: an unparsable text is kept under `raw`. */
  lemma DecodeKeepsText(text: string, parse: Parser)
    requires text != ""
    ensures parse(text).Failure? ==> Get(DecodeBody(text, parse), "raw") == Some(JStr(text))
    ensures parse(text).Success? ==> DecodeBody(text, parse) == parse(text).value
  {
  }

  /** The message of the error raised for a failed status: the serialized body when it is
      an object (or `null`), `String(body)` otherwise. */
  function ErrorMessage(body: Json, stringify: Stringifier): (m: string)
    ensures IsObjectType(body) ==> m == stringify(body)
    ensures body.JStr? ==> m == body.s
    ensures body.JNum? ==> m == body.literal
    ensures body.JBool? ==> m == if body.b then "true" else "false"
  {
    if IsObjectType(body) then stringify(body) else ToDisplay(body)
  }

  /** What `findSold` does with the reply: a transport failure is rethrown, a failed
      status raises the serialized body, and otherwise the decoded body is the result. */
  function ReadSold(reply: Transport, parse: Parser, stringify: Stringifier): (r: Result<Json, Error>)
    ensures reply.NetworkFailure? ==> r == Failure(Error(reply.message, None))
    ensures reply.Delivered? && !IsOk(reply.status) ==>
      r == Failure(Error(ErrorMessage(DecodeBody(reply.text, parse), stringify), None))
    ensures reply.Delivered? && IsOk(reply.status) ==> r == Success(DecodeBody(reply.text, parse))
    ensures r.Failure? ==> r.error.details.None?
  {
    match reply
    case NetworkFailure(m) => Failure(Error(m, None))
    case Delivered(status, text) =>
      var body := DecodeBody(text, parse);
      if IsOk(status) then Success(body) else Failure(Error(ErrorMessage(body, stringify), None))
  }

  /** A failed reply whose text is not JSON reports its text, serialized under `raw`. */
  lemma FailedRawReply(status: int, text: string, parse: Parser, stringify: Stringifier)
    requires !IsOk(status) && text != "" && parse(text).Failure?
    ensures ReadSold(Delivered(status, text), parse, stringify)
      == Failure(Error(stringify(JObj(map["raw" := JStr(text)])), None))
  {
  }

  // ---------------------------------------------------------------------------
  // The two gateways
  // ---------------------------------------------------------------------------

  /** One exchange of the serverless gateway: the request it sends and its outcome. */
  datatype Exchange = Exchange(request: SoldRequest, result: Result<Json, Error>)

  /** The serverless `findSold`: no cache, so every call sends exactly one request. */
  function FindSoldServerless(host: string, apiKey: string, keywords: string, size: Option<int>,
                              reply: Transport, parse: Parser, stringify: Stringifier): (x: Exchange)
    ensures x.request.url == "https://" + host + "/findCompletedItems"
    ensures x.request.body.JObj? && "keywords" in x.request.body.fields
    ensures x.request.body.fields["keywords"] == JStr(keywords)
    ensures x.result == ReadSold(reply, parse, stringify)
  {
    Exchange(RequestFor(host, apiKey, keywords, ClampSize(size)), ReadSold(reply, parse, stringify))
  }

  /** One call of the server gateway: the request it sent, if any, its outcome, and the
      cache afterwards. */
  datatype SoldCall = SoldCall(request: Option<SoldRequest>, result: Result<Json, Error>, cache: map<string, Json>)

  /** The server `findSold`: a cached body is returned without a request; otherwise the
      request goes out and only a successful body is stored. */
  function FindSold(cache: map<string, Json>, host: string, apiKey: string, keywords: string,
                    size: Option<int>, reply: Transport, parse: Parser, stringify: Stringifier): (c: SoldCall)
    ensures var key := CacheKey(keywords, ClampSize(size));
      key in cache ==> c == SoldCall(None, Success(cache[key]), cache)
    ensures c.result.Failure? ==> c.cache == cache
    ensures c.result.Success? ==> var key := CacheKey(keywords, ClampSize(size));
      key in c.cache && c.cache[key] == c.result.value
  {
    var key := CacheKey(keywords, ClampSize(size));
    if key in cache then SoldCall(None, Success(cache[key]), cache)
    else
      var x := FindSoldServerless(host, apiKey, keywords, size, reply, parse, stringify);
      SoldCall(Some(x.request), x.result, if x.result.Success? then cache[key := x.result.value] else cache)
  }

  /** On a miss the server behaves exactly as the serverless gateway, and stores the body
      under the key if, and only if, the call succeeds; no other entry changes. */
  lemma MissIsServerless(cache: map<string, Json>, host: string, apiKey: string, keywords: string,
                         size: Option<int>, reply: Transport, parse: Parser, stringify: Stringifier)
    requires CacheKey(keywords, ClampSize(size)) !in cache
    ensures var c := FindSold(cache, host, apiKey, keywords, size, reply, parse, stringify);
      var x := FindSoldServerless(host, apiKey, keywords, size, reply, parse, stringify);
      c.request == Some(x.request) && c.result == x.result
    ensures var c := FindSold(cache, host, apiKey, keywords, size, reply, parse, stringify);
      var key := CacheKey(keywords, ClampSize(size));
      (key in c.cache <==> c.result.Success?) && forall k | k != key :: (k in c.cache <==> k in cache)
    ensures var c := FindSold(cache, host, apiKey, keywords, size, reply, parse, stringify);
      var key := CacheKey(keywords, ClampSize(size));
      (c.result.Success? ==> c.cache[key] == c.result.value)
      && forall k | k != key && k in cache :: c.cache[k] == cache[k]
  {
  }

  /** After a successful call, the same search hits: it returns the same body, sends
      nothing and ignores whatever the provider would have replied. */
  lemma StoredThenHit(cache: map<string, Json>, host: string, apiKey: string, keywords: string,
                      size: Option<int>, reply: Transport, later: Transport, parse: Parser, stringify: Stringifier)
    requires FindSold(cache, host, apiKey, keywords, size, reply, parse, stringify).result.Success?
    ensures var c := FindSold(cache, host, apiKey, keywords, size, reply, parse, stringify);
      var d := FindSold(c.cache, host, apiKey, keywords, size, later, parse, stringify);
      d.request.None? && d.result == c.result && d.cache == c.cache
  {
  }

  /** The cache may drop an entry at any time; the next call for it asks the provider
      again. */
  lemma EvictedRefetches(cache: map<string, Json>, host: string, apiKey: string, keywords: string,
                         size: Option<int>, reply: Transport, parse: Parser, stringify: Stringifier)
    ensures var key := CacheKey(keywords, ClampSize(size));
      var c := FindSold(cache - {key}, host, apiKey, keywords, size, reply, parse, stringify);
      c.request == Some(RequestFor(host, apiKey, keywords, ClampSize(size)))
  {
  }
}

=== FILE: text.dfy ===
/** String helpers shared by every part of the model: whitespace trimming (JavaScript
    `trim`, Python `strip`), substring search and splitting, collapsing whitespace runs
    to single spaces, and decimal digits. */
module Text {
  import opened Wrappers

  /** The whitespace class: the six ASCII characters on which JavaScript's `\s` and
      Python's `str.isspace` agree. Python's further ASCII separators U+001C to U+001F
      and both languages' non-ASCII whitespace are not modelled. */
  predicate IsSpace(c: char) {
    c == ' ' || c == '\t' || c == '\n' || c == '\r' || c == '\U{000B}' || c == '\U{000C}'
  }

  predicate AllSpace(s: string) {
    forall i | 0 <= i < |s| :: IsSpace(s[i])
  }

  /** Neither begins nor ends with whitespace. */
  predicate Trimmed(s: string) {
    |s| == 0 || (!IsSpace(s[0]) && !IsSpace(s[|s| - 1]))
  }

  // ---------------------------------------------------------------------------
  // Trimming
  // ---------------------------------------------------------------------------

  /** The length of the leading whitespace run. */
  function LeadingSpace(s: string): (n: nat)
    ensures n <= |s| && AllSpace(s[..n])
    ensures n == |s| || !IsSpace(s[n])
  {
    if |s| > 0 && IsSpace(s[0]) then
      var n := LeadingSpace(s[1..]);
      assert forall i | 1 <= i < 1 + n :: s[i] == s[1..][..n][i - 1];
      1 + n
    else
      0
  }

  /** The length of the trailing whitespace run. */
  function TrailingSpace(s: string): (n: nat)
    ensures n <= |s| && AllSpace(s[|s| - n..])
    ensures n == |s| || !IsSpace(s[|s| - n - 1])
  {
    if |s| > 0 && IsSpace(s[|s| - 1]) then
      var n := TrailingSpace(s[..|s| - 1]);
      assert forall i | |s| - 1 - n <= i < |s| - 1 :: s[i] == s[..|s| - 1][|s| - 1 - n..][i - (|s| - 1 - n)];
      1 + n
    else
      0
  }

  /** Drops the leading whitespace run (`trimStart`, `lstrip`). */
  function TrimStart(s: string): string {
    s[LeadingSpace(s)..]
  }

  /** Drops the trailing whitespace run (`trimEnd`, `rstrip`). */
  function TrimEnd(s: string): string {
    s[..|s| - TrailingSpace(s)]
  }

  /** Drops whitespace at both ends (`trim`, `strip`). */
  function Trim(s: string): (r: string)
    ensures Trimmed(r)
  {
    TrimEnd(TrimStart(s))
  }

  /** Trimming leaves nothing exactly when the text is all whitespace. */
  lemma TrimBlank(s: string)
    ensures Trim(s) == "" <==> AllSpace(s)
  {
    TrimIsInfix(s);
    if Trim(s) == "" {
      var k := |s| - |TrimStart(s)|;
      assert s == s[..k] + s[k..];
    }
  }

  /** The trimmed string sits in `s` between a whitespace prefix and a whitespace suffix. */
  lemma TrimIsInfix(s: string)
    ensures var k := |s| - |TrimStart(s)|; var r := Trim(s);
      k + |r| <= |s| && r == s[k..k + |r|] && AllSpace(s[..k]) && AllSpace(s[k + |r|..])
  {
    var t := TrimStart(s);
    var r := Trim(s);
    var k := |s| - |t|;
    assert t[..|r|] == s[k..k + |r|];
    assert s[k + |r|..] == t[|r|..];
  }

  lemma {:induction false} TrimStartSkips(w: string, y: string)
    requires AllSpace(w)
    requires y == [] || !IsSpace(y[0])
    ensures TrimStart(w + y) == y
    decreases |w|
  {
    if w == [] {
      assert w + y == y;
    } else {
      assert (w + y)[1..] == w[1..] + y;
      TrimStartSkips(w[1..], y);
    }
  }

  lemma {:induction false} TrimEndSkips(y: string, w: string)
    requires AllSpace(w)
    requires y == [] || !IsSpace(y[|y| - 1])
    ensures TrimEnd(y + w) == y
    decreases |w|
  {
    if w == [] {
      assert y + w == y;
    } else {
      assert (y + w)[..|y + w| - 1] == y + w[..|w| - 1];
      TrimEndSkips(y, w[..|w| - 1]);
    }
  }

  /** Trimming is characterised by its result: padding a trimmed string with whitespace
      on both sides and trimming gives the string back. */
  lemma {:induction false} TrimPadded(w1: string, x: string, w2: string)
    requires AllSpace(w1) && AllSpace(w2) && Trimmed(x)
    ensures Trim(w1 + x + w2) == x
  {
    if x == [] {
      assert w1 + x + w2 == (w1 + w2) + [];
      TrimStartSkips(w1 + w2, []);
    } else {
      assert w1 + x + w2 == w1 + (x + w2);
      TrimStartSkips(w1, x + w2);
      TrimEndSkips(x, w2);
    }
  }

  lemma TrimIdempotent(s: string)
    ensures Trim(Trim(s)) == Trim(s)
  {
    TrimPadded([], Trim(s), []);
    assert [] + Trim(s) + [] == Trim(s);
  }

  // ---------------------------------------------------------------------------
  // Substring search
  // ---------------------------------------------------------------------------

  predicate OccursAt(s: string, pat: string, i: int) {
    0 <= i && i + |pat| <= |s| && s[i..i + |pat|] == pat
  }

  predicate Contains(s: string, pat: string) {
    exists i | 0 <= i <= |s| :: OccursAt(s, pat, i)
  }

  predicate StartsWith(s: string, pat: string) {
    |pat| <= |s| && s[..|pat|] == pat
  }

  predicate EndsWith(s: string, pat: string) {
    |pat| <= |s| && s[|s| - |pat|..] == pat
  }

  /** The first occurrence of `pat` at or after `from`. */
  function IndexFrom(s: string, pat: string, from: nat): (r: Option<nat>)
    ensures r.Some? ==> from <= r.value && OccursAt(s, pat, r.value)
    ensures r.Some? ==> forall j | from <= j < r.value :: !OccursAt(s, pat, j)
    ensures r.None? ==> forall j | from <= j :: !OccursAt(s, pat, j)
    decreases |s| - from
  {
    if from + |pat| > |s| then None
    else if s[from..from + |pat|] == pat then Some(from)
    else IndexFrom(s, pat, from + 1)
  }

  /** The first occurrence of `pat` (Python `find`, JavaScript `indexOf`), `None` for -1. */
  function IndexOf(s: string, pat: string): (r: Option<nat>)
    ensures r.None? <==> !Contains(s, pat)
    ensures r.Some? ==> OccursAt(s, pat, r.value)
    ensures r.Some? ==> forall j | 0 <= j < r.value :: !OccursAt(s, pat, j)
  {
    var r := IndexFrom(s, pat, 0);
    assert r.Some? ==> Contains(s, pat) by {
      if r.Some? {
        assert OccursAt(s, pat, r.value);
      }
    }
    r
  }

  lemma SliceOfSlice(s: string, i: nat, j: nat, k: nat, n: nat)
    requires i <= j <= |s| && k + n <= j - i
    ensures s[i..j][k..k + n] == s[i + k..i + k + n]
  {
    var a := s[i..j][k..k + n];
    var b := s[i + k..i + k + n];
    forall m | 0 <= m < n
      ensures a[m] == b[m]
    {
    }
  }

  /** A part of a string that contains no `pat` contains no `pat` either. */
  lemma InfixNotContains(s: string, i: nat, j: nat, pat: string)
    requires i <= j <= |s|
    requires !Contains(s, pat)
    ensures !Contains(s[i..j], pat)
  {
    forall k | 0 <= k <= j - i
      ensures !OccursAt(s[i..j], pat, k)
    {
      if k + |pat| <= j - i {
        SliceOfSlice(s, i, j, k, |pat|);
        assert !OccursAt(s, pat, i + k);
      }
    }
  }

  /** Two strings that each end in `c`, followed by `c`-free tails, are equal only when
      both the heads and the tails are: the tail is what follows the last `c`. */
  lemma SameTailAfterLast(x1: string, d1: string, x2: string, d2: string, c: char)
    requires |x1| > 0 && x1[|x1| - 1] == c && |x2| > 0 && x2[|x2| - 1] == c
    requires c !in d1 && c !in d2
    requires x1 + d1 == x2 + d2
    ensures x1 == x2 && d1 == d2
  {
    var s := x1 + d1;
    assert s[|x1| - 1] == c && s[|x2| - 1] == c;
    assert |x1| == |x2| by {
      assert forall i | |x2| <= i < |s| :: s[i] == d2[i - |x2|];
      assert forall i | |x1| <= i < |s| :: s[i] == d1[i - |x1|];
    }
    assert x1 == s[..|x1|] && x2 == s[..|x2|];
    assert d1 == s[|x1|..] && d2 == s[|x2|..];
  }

  lemma CharNotContained(s: string, c: char)
    requires !Contains(s, [c])
    ensures c !in s
  {
    forall i | 0 <= i < |s|
      ensures s[i] != c
    {
      assert !OccursAt(s, [c], i);
      assert s[i..i + 1] == [s[i]];
    }
  }

  /** A string lacking some character of `pat` cannot contain `pat`. */
  lemma MissingCharNotContained(s: string, pat: string, k: nat)
    requires k < |pat| && pat[k] !in s
    ensures !Contains(s, pat)
  {
    forall i | 0 <= i <= |s|
      ensures !OccursAt(s, pat, i)
    {
      if i + |pat| <= |s| {
        assert s[i..i + |pat|][k] == s[i + k];
      }
    }
  }

  /** Gluing two `pat`-free strings with a character that `pat` does not use
      creates no occurrence of `pat`. */
  lemma NotContainsAcross(x: string, c: char, y: string, pat: string)
    requires c !in pat
    requires !Contains(x, pat) && !Contains(y, pat)
    ensures !Contains(x + [c] + y, pat)
  {
    var s := x + [c] + y;
    forall j | 0 <= j <= |s|
      ensures !OccursAt(s, pat, j)
    {
      if j + |pat| <= |s| {
        if j + |pat| <= |x| {
          assert s[j..j + |pat|] == x[j..j + |pat|];
          assert !OccursAt(x, pat, j);
        } else if j > |x| {
          assert s[j..j + |pat|] == y[j - |x| - 1..j - |x| - 1 + |pat|];
          assert !OccursAt(y, pat, j - |x| - 1);
        } else {
          assert s[j..j + |pat|][|x| - j] == c;
        }
      }
    }
  }

  // ---------------------------------------------------------------------------
  // Splitting and joining
  // ---------------------------------------------------------------------------

  /** `parts.join(sep)`: the empty list joins to "" and one part to itself. */
  function Join(parts: seq<string>, sep: string): string {
    if |parts| == 0 then ""
    else if |parts| == 1 then parts[0]
    else parts[0] + sep + Join(parts[1..], sep)
  }

  lemma ConcatAssoc(a: string, b: string, c: string)
    ensures a + b + c == a + (b + c)
  {
    forall i | 0 <= i < |a| + |b| + |c|
      ensures (a + b + c)[i] == (a + (b + c))[i]
    {
    }
  }

  /** The text before the first occurrence of `pat` does not contain it. */
  lemma PrefixBeforeFirst(s: string, pat: string, h: nat)
    requires |pat| > 0 && h <= |s|
    requires forall j | 0 <= j < h :: !OccursAt(s, pat, j)
    ensures !Contains(s[..h], pat)
  {
    forall j | 0 <= j <= h
      ensures !OccursAt(s[..h], pat, j)
    {
      if j + |pat| <= h {
        SliceOfSlice(s, 0, h, j, |pat|);
        assert !OccursAt(s, pat, j);
      }
    }
  }

  /** `s.split(sep)` for a non-empty separator (Python refuses an empty one): the pieces
      between the non-overlapping occurrences of `sep`, scanned left to right. Splitting
      is undone by joining, and no piece contains the separator. */
  function Split(s: string, sep: string): (parts: seq<string>)
    requires |sep| > 0
    ensures |parts| >= 1
    ensures forall i | 0 <= i < |parts| :: !Contains(parts[i], sep)
    ensures Join(parts, sep) == s
    decreases |s|
  {
    match IndexOf(s, sep)
    case None => [s]
    case Some(i) =>
      var rest := Split(s[i + |sep|..], sep);
      PrefixBeforeFirst(s, sep, i);
      assert ([s[..i]] + rest)[1..] == rest;
      assert s[..i] + sep + s[i + |sep|..] == s by {
        assert s[i..i + |sep|] == sep;
        assert s == s[..i] + s[i..i + |sep|] + s[i + |sep|..];
      }
      [s[..i]] + rest
  }

  /** The first piece of a split is a prefix of the text that ends at the text's end or
      at an occurrence of the separator. */
  lemma SplitFirstPiece(s: string, sep: string)
    requires |sep| > 0
    ensures var p := Split(s, sep)[0];
      |p| <= |s| && p == s[..|p|] && (|p| == |s| || OccursAt(s, sep, |p|))
  {
  }

  /** After the first separator, splitting continues on the rest of the text. */
  lemma SplitSecondPiece(s: string, sep: string, i: nat)
    requires |sep| > 0 && IndexOf(s, sep) == Some(i)
    ensures |Split(s, sep)| >= 2 && Split(s, sep)[1] == Split(s[i + |sep|..], sep)[0]
  {
  }

  /** A character that occurs in a text is contained in it as a one-character pattern. */
  lemma CharContained(s: string, c: char)
    requires c in s
    ensures Contains(s, [c])
  {
    var k :| 0 <= k < |s| && s[k] == c;
    assert s[k..k + 1] == [c];
    assert OccursAt(s, [c], k);
  }

  /** Before the first occurrence of a one-character pattern, the character is absent. */
  lemma FirstCharBefore(s: string, c: char, i: nat)
    requires i <= |s| && forall j | 0 <= j < i :: !OccursAt(s, [c], j)
    ensures c !in s[..i]
  {
    forall j | 0 <= j < i
      ensures s[..i][j] != c
    {
      assert !OccursAt(s, [c], j);
      assert s[j..j + 1] == [s[j]];
    }
  }

  /** `p` is the text between the first `c` of `s`, at `i`, and the next `c` or the end. */
  predicate FieldAfterFirst(s: string, c: char, p: string, i: int) {
    0 <= i < |s| && s[i] == c && c !in s[..i] && i + 1 + |p| <= |s|
    && s[i + 1..i + 1 + |p|] == p && (i + 1 + |p| == |s| || s[i + 1 + |p|] == c)
  }

  /** In a text holding `c`, the second piece of a split at `c` is the text between the
      first `c` and the next one or the end. */
  lemma SecondPieceBetween(s: string, c: char)
    requires c in s
    ensures |Split(s, [c])| >= 2
    ensures c !in Split(s, [c])[1] && exists i :: FieldAfterFirst(s, c, Split(s, [c])[1], i)
  {
    CharContained(s, c);
    var i := IndexOf(s, [c]).value;
    SplitSecondPiece(s, [c], i);
    var p := Split(s, [c])[1];
    CharNotContained(p, c);
    PieceBetween(s, c, i, p);
  }

  lemma PieceBetween(s: string, c: char, i: nat, p: string)
    requires IndexOf(s, [c]) == Some(i) && p == Split(s[i + 1..], [c])[0]
    ensures FieldAfterFirst(s, c, p, i)
  {
    assert s[i..i + 1] == [c];
    FirstCharBefore(s, c, i);
    var t := s[i + 1..];
    SplitFirstPiece(t, [c]);
    assert t[..|p|] == s[i + 1..i + 1 + |p|];
    if i + 1 + |p| < |s| {
      assert t[|p|..|p| + 1] == [c];
      assert t[|p|] == s[i + 1 + |p|];
    }
  }

  /** The number of positions at or after `from` where `pat` occurs. */
  function Count(s: string, pat: string, from: nat): nat
    decreases |s| + 1 - from
  {
    if from > |s| then 0
    else (if OccursAt(s, pat, from) then 1 else 0) + Count(s, pat, from + 1)
  }

  lemma {:induction false} CountShift(s: string, pat: string, k: nat, from: nat)
    requires k <= |s|
    ensures Count(s, pat, k + from) == Count(s[k..], pat, from)
    decreases |s| + 1 - from
  {
    if k + from <= |s| {
      if k + from + |pat| <= |s| {
        assert s[k..][from..from + |pat|] == s[k + from..k + from + |pat|];
      }
      CountShift(s, pat, k, from + 1);
    }
  }

  lemma {:induction false} CountMonotone(s: string, pat: string, a: nat, b: nat)
    requires a <= b
    ensures Count(s, pat, a) >= Count(s, pat, b)
    decreases b - a
  {
    if a < b {
      CountMonotone(s, pat, a + 1, b);
    }
  }

  lemma SplitStepLength(s: string, sep: string, i: nat)
    requires |sep| > 0 && IndexOf(s, sep) == Some(i)
    ensures |Split(s, sep)| == 1 + |Split(s[i + |sep|..], sep)|
  {
  }

  /** Splitting never yields more pieces than there are occurrences of the separator,
      plus one. */
  lemma {:induction false} SplitCount(s: string, sep: string)
    requires |sep| > 0
    ensures |Split(s, sep)| <= Count(s, sep, 0) + 1
    decreases |s|
  {
    match IndexOf(s, sep)
    case None =>
      SplitFree(s, sep);
    case Some(i) =>
      SplitStepLength(s, sep, i);
      SplitCount(s[i + |sep|..], sep);
      CountPastFirst(s, sep, i);
  }

  /** An occurrence is counted, and everything after it is counted again in the rest of
      the string. */
  lemma CountPastFirst(s: string, sep: string, i: nat)
    requires |sep| > 0 && OccursAt(s, sep, i)
    ensures Count(s, sep, 0) >= 1 + Count(s[i + |sep|..], sep, 0)
  {
    CountShift(s, sep, i + |sep|, 0);
    CountMonotone(s, sep, i + 1, i + |sep|);
    CountMonotone(s, sep, 0, i);
    CountAt(s, sep, i);
  }

  lemma CountAt(s: string, sep: string, i: nat)
    requires OccursAt(s, sep, i)
    ensures Count(s, sep, i) == 1 + Count(s, sep, i + 1)
  {
  }

  /** No proper suffix of `sep` is also a prefix of it, so two occurrences never overlap. */
  predicate Unbordered(sep: string) {
    forall d | 0 < d < |sep| :: sep[d..] != sep[..|sep| - d]
  }

  lemma UnborderedByLastChar(sep: string)
    requires |sep| > 0
    requires forall k | 0 <= k < |sep| - 1 :: sep[k] != sep[|sep| - 1]
    ensures Unbordered(sep)
  {
    forall d | 0 < d < |sep|
      ensures sep[d..] != sep[..|sep| - d]
    {
      assert sep[d..][|sep| - d - 1] == sep[|sep| - 1];
      assert sep[..|sep| - d][|sep| - d - 1] == sep[|sep| - d - 1];
    }
  }

  /** A string free of the separator is a single piece. */
  lemma SplitFree(s: string, sep: string)
    requires |sep| > 0 && !Contains(s, sep)
    ensures Split(s, sep) == [s]
  {
  }

  /** A leading piece free of an unbordered separator is split off on its own. */
  lemma {:induction false} SplitAfterFree(a: string, sep: string, b: string)
    requires |sep| > 0 && Unbordered(sep) && !Contains(a, sep)
    ensures Split(a + sep + b, sep) == [a] + Split(b, sep)
  {
    var s := a + sep + b;
    assert s[|a|..|a| + |sep|] == sep;
    assert OccursAt(s, sep, |a|);
    forall j | 0 <= j < |a|
      ensures !OccursAt(s, sep, j)
    {
      if j + |sep| <= |a| {
        assert s[j..j + |sep|] == a[j..j + |sep|];
        assert !OccursAt(a, sep, j);
      } else {
        var d := |a| - j;
        assert sep[d..] != sep[..|sep| - d];
        var m :| 0 <= m < |sep| - d && sep[d..][m] != sep[..|sep| - d][m];
        assert s[j + d + m] == s[|a|..|a| + |sep|][m];
      }
    }
    var k := IndexOf(s, sep);
    assert k == Some(|a|);
    assert s[..|a|] == a;
    assert s[|a| + |sep|..] == b;
  }

  // ---------------------------------------------------------------------------
  // Whitespace collapsing
  // ---------------------------------------------------------------------------

  /** Every whitespace character is a plain space and no two are adjacent. */
  predicate Collapsed(s: string) {
    forall i | 0 <= i < |s| :: IsSpace(s[i]) ==> s[i] == ' ' && (i + 1 == |s| || !IsSpace(s[i + 1]))
  }

  /** The non-whitespace characters of `s`, in order. */
  function NonSpace(s: string): string {
    if |s| == 0 then "" else if IsSpace(s[0]) then NonSpace(s[1..]) else [s[0]] + NonSpace(s[1..])
  }

  /** Each maximal whitespace run becomes one space; everything else is kept. */
  function Collapse(s: string): (r: string)
    ensures Collapsed(r)
    ensures |r| == 0 <==> |s| == 0
    ensures |s| > 0 ==> (if IsSpace(s[0]) then r[0] == ' ' else r[0] == s[0])
    decreases |s|
  {
    if |s| == 0 then ""
    else if IsSpace(s[0]) then " " + Collapse(TrimStart(s))
    else [s[0]] + Collapse(s[1..])
  }

  lemma {:induction false} NonSpaceOfSpaces(w: string, y: string)
    requires AllSpace(w)
    ensures NonSpace(w + y) == NonSpace(y)
    decreases |w|
  {
    if w != [] {
      assert (w + y)[1..] == w[1..] + y;
      NonSpaceOfSpaces(w[1..], y);
    } else {
      assert w + y == y;
    }
  }

  /** Collapsing never loses, adds or reorders a visible character. */
  lemma {:induction false} CollapseKeepsNonSpace(s: string)
    ensures NonSpace(Collapse(s)) == NonSpace(s)
    decreases |s|
  {
    if |s| == 0 {
    } else if IsSpace(s[0]) {
      var t := TrimStart(s);
      CollapseKeepsNonSpace(t);
      assert s == s[..|s| - |t|] + t;
      NonSpaceOfSpaces(s[..|s| - |t|], t);
      assert (" " + Collapse(t))[1..] == Collapse(t);
    } else {
      CollapseKeepsNonSpace(s[1..]);
      assert ([s[0]] + Collapse(s[1..]))[1..] == Collapse(s[1..]);
    }
  }

  /** A collapsed string is left alone. */
  lemma {:induction false} CollapseFixesCollapsed(s: string)
    requires Collapsed(s)
    ensures Collapse(s) == s
    decreases |s|
  {
    if |s| > 0 {
      assert Collapsed(s[1..]) by {
        forall i | 0 <= i < |s[1..]| && IsSpace(s[1..][i])
          ensures s[1..][i] == ' ' && (i + 1 == |s[1..]| || !IsSpace(s[1..][i + 1]))
        {
          assert s[1..][i] == s[i + 1];
        }
      }
      if IsSpace(s[0]) {
        assert s == [s[0]] + s[1..];
        TrimStartSkips([s[0]], s[1..]);
      }
      CollapseFixesCollapsed(s[1..]);
      assert s == [s[0]] + s[1..];
    }
  }

  lemma CollapsedInfix(s: string, i: nat, j: nat)
    requires i <= j <= |s| && Collapsed(s)
    ensures Collapsed(s[i..j])
  {
    forall k | 0 <= k < j - i && IsSpace(s[i..j][k])
      ensures s[i..j][k] == ' ' && (k + 1 == j - i || !IsSpace(s[i..j][k + 1]))
    {
      assert s[i..j][k] == s[i + k];
      if k + 1 < j - i {
        assert s[i..j][k + 1] == s[i + k + 1];
      }
    }
  }

  /** Every whitespace run becomes one plain space, then the ends are trimmed: single
      spaces between words, none at the ends. */
  function Clean(s: string): (r: string)
    ensures Collapsed(r) && Trimmed(r)
  {
    var c := Collapse(s);
    TrimIsInfix(c);
    CollapsedInfix(c, |c| - |TrimStart(c)|, |c| - |TrimStart(c)| + |Trim(c)|);
    Trim(c)
  }

  /** Cleaning keeps every visible character, in order. */
  lemma CleanKeepsNonSpace(s: string)
    ensures NonSpace(Clean(s)) == NonSpace(s)
  {
    NonSpaceOfTrim(Collapse(s));
    CollapseKeepsNonSpace(s);
  }

  /** Trimming only removes whitespace. */
  lemma NonSpaceOfTrim(s: string)
    ensures NonSpace(Trim(s)) == NonSpace(s)
  {
    NonSpaceOfTrimStart(s);
    NonSpaceOfTrimEnd(TrimStart(s));
  }

  lemma NonSpaceOfTrimStart(s: string)
    ensures NonSpace(TrimStart(s)) == NonSpace(s)
  {
    var n := LeadingSpace(s);
    assert s == s[..n] + s[n..];
    NonSpaceOfSpaces(s[..n], s[n..]);
  }

  lemma NonSpaceOfTrimEnd(s: string)
    ensures NonSpace(TrimEnd(s)) == NonSpace(s)
  {
    var k := |s| - TrailingSpace(s);
    assert s == s[..k] + s[k..];
    NonSpaceOfTrailingSpaces(s[..k], s[k..]);
  }

  lemma {:induction false} NonSpaceOfTrailingSpaces(y: string, w: string)
    requires AllSpace(w)
    ensures NonSpace(y + w) == NonSpace(y)
    decreases |y|
  {
    if y == [] {
      assert y + w == w + [];
      NonSpaceOfSpaces(w, []);
    } else {
      assert (y + w)[1..] == y[1..] + w;
      assert (y + w)[0] == y[0];
      NonSpaceOfTrailingSpaces(y[1..], w);
    }
  }

  /** Cleaning twice is cleaning once. */
  lemma {:induction false} CleanIdempotent(s: string)
    ensures Clean(Clean(s)) == Clean(s)
  {
    var c := Clean(s);
    CollapseFixesCollapsed(c);
    TrimPadded([], c, []);
    assert [] + c + [] == c;
  }

  /** Holds no whitespace at all. */
  predicate NoSpace(s: string) {
    forall i | 0 <= i < |s| :: !IsSpace(s[i])
  }

  /** The length of the leading run of non-whitespace characters. */
  function WordLen(s: string): (n: nat)
    ensures n <= |s| && NoSpace(s[..n])
    ensures n == |s| || IsSpace(s[n])
    ensures |s| > 0 && !IsSpace(s[0]) ==> n > 0
  {
    if |s| > 0 && !IsSpace(s[0]) then
      var n := WordLen(s[1..]);
      assert forall i | 1 <= i < 1 + n :: s[i] == s[1..][..n][i - 1];
      1 + n
    else
      0
  }

  /** The words of `s`: its maximal runs of non-whitespace characters, in order. */
  function Words(s: string): (ws: seq<string>)
    ensures forall k | 0 <= k < |ws| :: ws[k] != "" && NoSpace(ws[k])
    decreases |s|
  {
    var t := TrimStart(s);
    if t == "" then []
    else
      var n := WordLen(t);
      [t[..n]] + Words(t[n..])
  }

  /** Nothing to trim at the start of a string that starts with a visible character. */
  lemma TrimStartNoop(s: string)
    requires s == [] || !IsSpace(s[0])
    ensures TrimStart(s) == s
  {
    TrimStartSkips([], s);
    assert [] + s == s;
  }

  /** A string without whitespace at its ends trims to itself. */
  lemma TrimmedFixed(s: string)
    requires Trimmed(s)
    ensures Trim(s) == s
  {
    TrimPadded([], s, []);
    assert [] + s + [] == s;
  }

  /** Trailing whitespace of `c` is all that trimming the end of `a + c` removes, when `c`
      starts with a visible character. */
  lemma TrimEndAfter(a: string, c: string)
    requires c != [] && !IsSpace(c[0])
    ensures TrimEnd(a + c) == a + TrimEnd(c)
  {
    var k := |c| - TrailingSpace(c);
    assert c == c[..k] + c[k..];
    assert a + c == (a + c[..k]) + c[k..];
    assert (a + c[..k])[|a + c[..k]| - 1] == c[k - 1];
    TrimEndSkips(a + c[..k], c[k..]);
  }

  /** A visible run is copied by collapsing. */
  lemma {:induction false} CollapseWord(x: string, r: string)
    requires NoSpace(x)
    ensures Collapse(x + r) == x + Collapse(r)
    decreases |x|
  {
    if x == [] {
      assert x + r == r;
    } else {
      assert (x + r)[1..] == x[1..] + r;
      CollapseWord(x[1..], r);
      assert x == [x[0]] + x[1..];
    }
  }

  /** Leading whitespace does not change the cleaned text. */
  lemma CleanSkipsLeading(s: string)
    ensures Clean(s) == Clean(TrimStart(s))
  {
    var t := TrimStart(s);
    if s != [] && IsSpace(s[0]) {
      var c := Collapse(t);
      assert Collapse(s) == " " + c;
      TrimStartSkips(" ", c);
      TrimStartNoop(c);
    } else {
      TrimStartNoop(s);
    }
  }

  /** A word followed by whitespace only cleans to the word. */
  lemma CleanLastWord(x: string, r: string)
    requires x != [] && NoSpace(x) && AllSpace(r)
    ensures Clean(x + r) == x
  {
    CollapseWord(x, r);
    var w := Collapse(r);
    if r != [] {
      TrimStartSkips(r, []);
      assert r + [] == r;
      assert w == " " + Collapse([]);
    }
    assert AllSpace(w);
    TrimPadded([], x, w);
    assert [] + x + w == x + w;
  }

  /** A word followed by whitespace and more words cleans to the word, one space, and the
      cleaned rest. */
  lemma CleanNextWord(x: string, r: string)
    requires x != [] && NoSpace(x) && r != [] && IsSpace(r[0]) && TrimStart(r) != []
    ensures Clean(x + r) == x + " " + Clean(TrimStart(r))
  {
    var r2 := TrimStart(r);
    var c := Collapse(r2);
    CollapseWord(x, r);
    assert Collapse(r) == " " + c;
    assert c != [] && !IsSpace(c[0]);
    var y := x + " " + c;
    assert x + Collapse(r) == y;
    TrimStartNoop(y);
    assert y == (x + " ") + c;
    TrimEndAfter(x + " ", c);
    TrimStartNoop(c);
  }

  /** After the leading whitespace comes a visible character. */
  lemma FirstVisible(s: string)
    requires TrimStart(s) != []
    ensures !IsSpace(TrimStart(s)[0])
  {
    assert TrimStart(s)[0] == s[LeadingSpace(s)];
  }

  /** The first word of `s` and what follows it. */
  lemma WordsFirst(s: string, x: string, r: string)
    requires TrimStart(s) != [] && x == TrimStart(s)[..WordLen(TrimStart(s))]
    requires r == TrimStart(s)[WordLen(TrimStart(s))..]
    ensures TrimStart(s) == x + r && Words(s) == [x] + Words(r)
    ensures x != [] && NoSpace(x) && (r == [] || IsSpace(r[0])) && |r| < |s|
  {
    FirstVisible(s);
    SplitAt(TrimStart(s), WordLen(TrimStart(s)));
  }

  lemma SplitAt(t: string, n: nat)
    requires n <= |t|
    ensures t == t[..n] + t[n..]
  {
  }

  /** The words after the first one: none when only whitespace follows, otherwise the
      words of the text after that whitespace. */
  lemma WordsAfterSpace(r: string)
    ensures TrimStart(r) == [] ==> AllSpace(r) && Words(r) == []
    ensures TrimStart(r) != [] ==> Words(r) == Words(TrimStart(r))
  {
    var r2 := TrimStart(r);
    if r2 == [] {
      assert r[..LeadingSpace(r)] == r;
    } else {
      TrimStartNoop(r2);
    }
  }

  /** Cleaning is joining the words with single spaces: no visible character is lost and
      every whitespace run between two words becomes exactly one space. */
  lemma {:induction false} CleanIsWords(s: string)
    ensures Clean(s) == Join(Words(s), " ")
    decreases |s|
  {
    var t := TrimStart(s);
    CleanSkipsLeading(s);
    if t != [] {
      var x := t[..WordLen(t)];
      var r := t[WordLen(t)..];
      WordsFirst(s, x, r);
      WordsAfterSpace(r);
      if TrimStart(r) == [] {
        CleanLastWord(x, r);
      } else {
        var r2 := TrimStart(r);
        CleanNextWord(x, r);
        CleanIsWords(r2);
        assert ([x] + Words(r2))[1..] == Words(r2);
      }
    }
  }

  // ---------------------------------------------------------------------------
  // Decimal digits
  // ---------------------------------------------------------------------------

  predicate IsDigit(c: char) {
    '0' <= c <= '9'
  }

  predicate AllDigits(s: string) {
    forall i | 0 <= i < |s| :: IsDigit(s[i])
  }

  function DigitChar(d: nat): (c: char)
    requires d < 10
    ensures IsDigit(c) && c as int - '0' as int == d
  {
    ('0' as int + d) as char
  }

  /** The value of a run of decimal digits, most significant first. */
  function DigitsValue(ds: string): nat
    requires AllDigits(ds)
  {
    if |ds| == 0 then 0
    else DigitsValue(ds[..|ds| - 1]) * 10 + (ds[|ds| - 1] as int - '0' as int)
  }

  /** `String(n)` for a non-negative integer: decimal digits, no sign, no leading zero. */
  function NatToString(n: nat): (r: string)
    ensures |r| > 0 && AllDigits(r)
    ensures r[0] != '0' || n == 0
  {
    if n < 10 then [DigitChar(n)] else NatToString(n / 10) + [DigitChar(n % 10)]
  }

  lemma {:induction false} NatToStringValue(n: nat)
    ensures DigitsValue(NatToString(n)) == n
  {
    if n >= 10 {
      NatToStringValue(n / 10);
      var r := NatToString(n);
      assert r[..|r| - 1] == NatToString(n / 10);
    }
  }

  lemma NatToStringInjective(a: nat, b: nat)
    requires NatToString(a) == NatToString(b)
    ensures a == b
  {
    NatToStringValue(a);
    NatToStringValue(b);
  }

  /** `String(i)` for an integer. */
  function IntToString(i: int): (r: string)
    ensures |r| > 0 && (r[0] == '-' || IsDigit(r[0]))
  {
    if i < 0 then "-" + NatToString(-i) else NatToString(i)
  }

  /** The length of the leading run of decimal digits. */
  function DigitRun(s: string): (n: nat)
    ensures n <= |s| && AllDigits(s[..n])
    ensures n == |s| || !IsDigit(s[n])
  {
    if |s| > 0 && IsDigit(s[0]) then
      var n := 1 + DigitRun(s[1..]);
      assert forall i | 1 <= i < n :: s[i] == s[1..][..n - 1][i - 1];
      n
    else 0
  }

  lemma {:induction false} DigitRunOfDigits(ds: string, rest: string)
    requires AllDigits(ds)
    requires rest == [] || !IsDigit(rest[0])
    ensures DigitRun(ds + rest) == |ds|
    decreases |ds|
  {
    if ds == [] {
      assert ds + rest == rest;
    } else {
      assert (ds + rest)[1..] == ds[1..] + rest;
      DigitRunOfDigits(ds[1..], rest);
    }
  }
}

=== FILE: utils.dfy ===
/** The small helpers the handlers share: integer query parameters and the two JSON
    response shapes. */
module Utils {
  import opened Wrappers
  import opened Text
  import opened Js
  import opened Http

  /** `toInt(v, f)`: the integer `parseInt(v, 10)` reads from the start of `v`, or `f`
      when it reads none; an absent value is `undefined`, which reads none. */
  function ToInt(v: Option<string>, f: int): (n: int)
  {
    match v
    case None => f
    case Some(s) => ParseInt(s).GetOr(f)
  }

  /** The leading integer is read, whatever follows it: "3.7" gives 3, "-5x" gives -5,
      "  42" gives 42. */
  lemma ToIntReadsPrefix(w: string, n: int, rest: string, f: int)
    requires AllSpace(w)
    requires rest == [] || !IsDigit(rest[0])
    ensures ToInt(Some(w + IntToString(n) + rest), f) == n
  {
    ParseIntOfString(w, n, rest);
  }

  lemma ToIntExamples(f: int)
    ensures ToInt(Some("3.7"), f) == 3
    ensures ToInt(Some("-5x"), f) == -5
  {
    ToIntFraction(f);
    ToIntTrailingLetter(f);
  }

  lemma ToIntFraction(f: int)
    ensures ToInt(Some("3.7"), f) == 3
  {
    assert IntToString(3) == "3";
    ToIntReadsPrefix("", 3, ".7", f);
    assert "" + "3" + ".7" == "3.7";
  }

  lemma ToIntTrailingLetter(f: int)
    ensures ToInt(Some("-5x"), f) == -5
  {
    assert IntToString(-5) == "-5";
    ToIntReadsPrefix("", -5, "x", f);
    assert "" + "-5" + "x" == "-5x";
  }

  /** A value without any digit reads as the fallback. */
  lemma ToIntWithoutDigits(s: string, f: int)
    requires forall i | 0 <= i < |s| :: !IsDigit(s[i])
    ensures ToInt(Some(s), f) == f
  {
    var t := TrimStart(s);
    assert t == s[LeadingSpace(s)..];
    assert forall i | 0 <= i < |t| :: !IsDigit(t[i]) by {
      forall i | 0 <= i < |t|
        ensures !IsDigit(t[i])
      {
        assert t[i] == s[LeadingSpace(s) + i];
      }
    }
    if |t| > 1 {
      assert t[1..][0] == t[1];
    }
  }

  /** An absent value, as for a missing query parameter, reads as the fallback. */
  lemma ToIntAbsent(f: int)
    ensures ToInt(None, f) == f
    ensures ToInt(Some(""), f) == f
  {
    ToIntWithoutDigits("", f);
  }

  /** `okJson`: status 200 with the object as the body. */
  function OkJson(obj: Json): (r: Response)
    ensures r.status == 200 && r.body == Some(obj) && r.headers == map[]
  {
    Response(200, map[], Some(obj))
  }

  /** `{error: msg, details: det}`; a `details` holding `undefined` is dropped when the
      body is serialized. */
  function ErrorBody(msg: string, det: Option<Json>): (b: Json)
    ensures b.JObj? && "error" in b.fields && b.fields["error"] == JStr(msg)
    ensures "details" in b.fields <==> det.Some?
    ensures det.Some? ==> b.fields["details"] == det.value
    ensures b.fields.Keys <= {"error", "details"}
  {
    match det
    case None => JObj(map["error" := JStr(msg)])
    case Some(d) => JObj(map["error" := JStr(msg), "details" := d])
  }

  /** `errJson`: the given status with the error body. */
  function ErrJson(code: int, msg: string, det: Option<Json>): (r: Response)
    ensures r.status == code && r.headers == map[]
    ensures r.body.Some? && r.body.value.JObj?
    ensures var fs := r.body.value.fields; "error" in fs && fs["error"] == JStr(msg)
    ensures var fs := r.body.value.fields; "details" in fs <==> det.Some?
  {
    Response(code, map[], Some(ErrorBody(msg, det)))
  }
}

=== FILE: wrappers.dfy ===
/** Failure-compatible wrappers: `Option` stands for a JavaScript value that may be
    `undefined`, `Result` for a call that either returns or throws. */
module Wrappers {

  datatype Option<+T> = None | Some(value: T) {

    /** The wrapped value, or `default` when absent (JavaScript's `x ?? d` on one level). */
    function GetOr(default: T): T {
      match this
      case Some(v) => v
      case None => default
    }
  }

  /** `Success` is a normal return, `Failure` a thrown error. */
  datatype Result<+R, +E> = Success(value: R) | Failure(error: E)
}
